=== FILE: README.md ===
# ScriptTemplateEditor in Dafny

This project models the logic of the Unity editor extension ScriptTemplateEditor and proves properties of it. The extension saves script templates into Unity's `ScriptTemplates` directory. Each template is a `.txt` file. Its name spells out the template's menu priority, its menu hierarchy, its menu title and the file name of the scripts created from it:
`DD-seg__seg__Title-File<marker>.txt`.

The model covers two parts.

- **The template file-name codec** and the pure logic around it (`ScriptTemplateEditor.cs`). This covers:
  - the template record and its defaults;
  - `TypeToString`;
  - the `HasError` validator and its priority clamp;
  - the `GENERATE_FILE_NAME` encoder, including .NET's `{0:D2}` format;
  - the decoding constructor, including .NET's `Split` with `RemoveEmptyEntries` and the exceptions it can throw;
  - the file-name pattern of the directory scan;
  - the first-wins catalog of `SearchTemplateFiles`;
  - `CheckFileType` and the import of a selected asset;
  - the create button's guard together with the hierarchy filter of `GenerateTemplate` and the notification it registers.
- **The cooperative scheduler** of `EditorWindowBase.cs`. The window keeps a static list of routines. Each routine is a delayed call, a next-frame call or a timed notification, and each is a small state machine over a natural-number clock. Every editor update advances each routine in a snapshot of the list. Enabling and disabling the window subscribes the update and discards the list.

Modules, one per file:

| module | file | contents |
|---|---|---|
| `Wrappers` | wrappers.dfy | `Option`, `Result` |
| `Text` | text.dfy | ASCII digits, decimal rendering and parsing, ordinal substring test, the non-empty filter |
| `Templates` | template.dfy | the template record, `TypeToString`, `HasError`, `CheckFileType`, asset import |
| `FileNames` | filename.dfy | priority format, the name encoder, the splitter, the decoding constructor, the round trip |
| `Catalogs` | catalog.dfy | the name pattern, first-wins insertion, the directory scan |
| `Editor` | editor.dfy | the create button, end to end with the scan |
| `Routines` | routines.dfy | the three routine kinds and their traces over successive updates |
| `WindowBase` | windowbase.dfy | the static list, one editor update, enable/disable |

Some choices carry through the whole model:

- **Time.** `EditorApplication.timeSinceStartup` is a natural-number clock. Durations are integers, so the zero and negative cases are included.
- **Actions.** An action is an opaque identifier. The only part of an action the scheduler can observe is the routines it registers while it runs. This is the parameter `spawn`.
- **File contents.** The directory listing and the file contents are a sequence of `(name, text)` pairs. Each name is relative to the `ScriptTemplates` directory.

## Model

| member | source | states |
|---|---|---|
| Templates.TypeToString | ScriptTemplateEditor/Assets/ScriptTemplateEditor/Editor/ScriptTemplateEditor.cs:197-209 | The suffix is ".cs" exactly for C#, ".shader" exactly for a shader and ".compute" exactly for a compute shader, so the three suffixes are distinct. |
| Templates.SuffixShape | ScriptTemplateEditor/Assets/ScriptTemplateEditor/Editor/ScriptTemplateEditor.cs:197-209 | Every suffix is non-empty and starts with '.'. No suffix contains '-', '_' or a line break, so a marker never splits a file name or breaks the name pattern. |
| Templates.HasError | ScriptTemplateEditor/Assets/ScriptTemplateEditor/Editor/ScriptTemplateEditor.cs:215-235 | An error is reported exactly when the menu title, file name or text is empty. Each of the three messages appears exactly when its field is empty. Afterwards the priority is max(0, priority), and a non-negative priority leaves the record unchanged. |
| Templates.HasErrorIdempotent | ScriptTemplateEditor/Assets/ScriptTemplateEditor/Editor/ScriptTemplateEditor.cs:215-235 | Validating an already validated record reports the same problems and changes nothing. |
| Templates.CheckFileType | ScriptTemplateEditor/Assets/ScriptTemplateEditor/Editor/ScriptTemplateEditor.cs:349-366 | Returns true exactly for a MonoScript, Shader or ComputeShader asset, and then sets the type to the matching script type. For any other object it returns false and leaves the `ref` type as it was. |
| Templates.CheckFileTypeOfAsset | ScriptTemplateEditor/Assets/ScriptTemplateEditor/Editor/ScriptTemplateEditor.cs:349-366 | Each script type is recognised from its own asset class, whatever the `ref` type held before. |
| Templates.ImportAsset | ScriptTemplateEditor/Assets/ScriptTemplateEditor/Editor/ScriptTemplateEditor.cs:157-168 | "AddToTemplate" yields a record exactly for a recognised selection. That record is the field initialisers (priority 81, empty full name, names and hierarchy) with the asset's text and the matching type, as `new TemplateData(text, type)` builds it. |
| Templates.ImportedNeedsNames | ScriptTemplateEditor/Assets/ScriptTemplateEditor/Editor/ScriptTemplateEditor.cs:52-56 | An imported record always fails validation for the missing menu title and file name. It also fails for missing text exactly when the asset was empty. |
| Text.NonEmpty | ScriptTemplateEditor/Assets/ScriptTemplateEditor/Editor/ScriptTemplateEditor.cs:243-245 | The filtered hierarchy holds no empty segment. Its multiset is the original's with the empty strings removed, and a hierarchy without empty segments is unchanged. |
| Text.ContainsOccurs | ScriptTemplateEditor/Assets/ScriptTemplateEditor/Editor/ScriptTemplateEditor.cs:134 | The ordinal `string.Contains` test holds exactly when the needle occurs at some index of the string. |
| FileNames.Pad2 | ScriptTemplateEditor/Assets/ScriptTemplateEditor/Editor/ScriptTemplateEditor.cs:127 | A natural number renders as at least two decimal digits that parse back to it. It renders as exactly two digits iff it is below 100. A rendering longer than two digits has no leading zero, so 100 gives "100", never "0100". |
| FileNames.PriorityText | ScriptTemplateEditor/Assets/ScriptTemplateEditor/Editor/ScriptTemplateEditor.cs:127 | `{0:D2}`: a non-negative priority renders as its `Pad2` form: at least two digits with its value, and no leading zero beyond two digits. The result is exactly two digits iff 0 <= p < 100. A negative priority renders as '-' followed by the padded magnitude. |
| FileNames.TwoDigitPriority | ScriptTemplateEditor/Assets/ScriptTemplateEditor/Editor/ScriptTemplateEditor.cs:61-63 | Two digits read with `int.Parse` give a value below 100, and that value renders again as the same two digits. |
| FileNames.MarkedFileName | ScriptTemplateEditor/Assets/ScriptTemplateEditor/Editor/ScriptTemplateEditor.cs:134-135 | The result always contains the type's suffix. It equals the file name iff the file name already contains the suffix anywhere; otherwise it is the file name with the suffix appended. |
| FileNames.GeneratedFileName | ScriptTemplateEditor/Assets/ScriptTemplateEditor/Editor/ScriptTemplateEditor.cs:123-140 | The name starts with the formatted priority and '-', ends in ".txt", and contains the type suffix before ".txt". When the file name already carries the suffix, the name ends in "-" + file name + ".txt". |
| FileNames.Decode | ScriptTemplateEditor/Assets/ScriptTemplateEditor/Editor/ScriptTemplateEditor.cs:58-76 | A stub under 3 characters throws ArgumentOutOfRange. With 3 or more characters: a non-digit among the first two throws FormatError, and fewer than two pieces after index 3 throws IndexOutOfRange. Otherwise decoding succeeds: the full name is stub + ".txt"; the priority is the two leading digits; hierarchy + [title, file name] is exactly the piece list; the text is kept; the type stays C#. |
| FileNames.Pieces | ScriptTemplateEditor/Assets/ScriptTemplateEditor/Editor/ScriptTemplateEditor.cs:65-66 | Splitting on "__" and "-" with empty entries removed yields non-empty pieces, none of which contains '-' or "__". Which pieces these are is fixed by SplitKeepsText and SplitOfJoin. |
| FileNames.SplitJoin | ScriptTemplateEditor/Assets/ScriptTemplateEditor/Editor/ScriptTemplateEditor.cs:66 | Any non-empty pieces without '-' or '_', joined by any mix of "__" and "-", split back into exactly those pieces, in order. |
| FileNames.SplitKeepsText | ScriptTemplateEditor/Assets/ScriptTemplateEditor/Editor/ScriptTemplateEditor.cs:65-66 | On every input, the raw pieces, put back together with the separators the split consumed, give the input. No piece holds '-' or "__". A piece cut off by "__" never ends in '_', so every cut is the leftmost match. `Pieces` is the non-empty raw pieces in order. |
| FileNames.SplitOfJoin | ScriptTemplateEditor/Assets/ScriptTemplateEditor/Editor/ScriptTemplateEditor.cs:65-66 | The converse: any pieces free of '-' and "__", joined by "__" and "-" so that no piece before a "__" ends in '_', split back into exactly those pieces and separators. With SplitKeepsText, this fixes the split on every input, single '_' characters included. |
| FileNames.DecodeUnderscoreNames | ScriptTemplateEditor/Assets/ScriptTemplateEditor/Editor/ScriptTemplateEditor.cs:58-72 | A stub "dd-title-file" whose title and file name are non-empty and free of '-' and "__" decodes to exactly that title and file name under an empty hierarchy. A single '_' stays inside its piece. |
| FileNames.SplitHierarchy | ScriptTemplateEditor/Assets/ScriptTemplateEditor/Editor/ScriptTemplateEditor.cs:128-129 | The hierarchy part of a name (each separator-free segment followed by "__") splits back into the segments, in order, in front of whatever follows. |
| FileNames.DecodeGeneratedName | ScriptTemplateEditor/Assets/ScriptTemplateEditor/Editor/ScriptTemplateEditor.cs:58-76 | Round trip for a record with priority 0..99 and non-empty segments, title and file name that contain no '-' or '_'. Decoding its generated name without ".txt" gives back the exact full name, the priority, the hierarchy and the title. The file name comes back with its marker ("Base" becomes "Base.cs"), and the type comes back as C#. |
| FileNames.RegenerateSameName | ScriptTemplateEditor/Assets/ScriptTemplateEditor/Editor/ScriptTemplateEditor.cs:123-140 | Re-encoding a decoded record under its original type gives the very same file name. The marker is not appended twice. |
| FileNames.ReselectedTypeLost | ScriptTemplateEditor/Assets/ScriptTemplateEditor/Editor/ScriptTemplateEditor.cs:58-76 | A decoded shader or compute-shader template whose name has no ".cs" re-encodes with ".cs" appended. The reason is that decoding forgets the type. |
| FileNames.EnemyBaseExample | ScriptTemplateEditor/Assets/ScriptTemplateEditor/Editor/ScriptTemplateEditor.cs:123-140 | Priority 5, hierarchy ["Gameplay"], title "Enemy" and C# file "Base" give "05-Gameplay__Enemy-Base.cs.txt". |
| FileNames.DocsKeepsName | ScriptTemplateEditor/Assets/ScriptTemplateEditor/Editor/ScriptTemplateEditor.cs:134-135 | The marker test is a substring test, not an ends-with test: "Docs.csv" already contains ".cs" and gets no marker. |
| FileNames.SubstringMarker | ScriptTemplateEditor/Assets/ScriptTemplateEditor/Editor/ScriptTemplateEditor.cs:123-140 | A C# template with priority 0, no hierarchy, title "Data" and file name "Docs.csv" is written as "00-Data-Docs.csv.txt". |
| Catalogs.Capture | ScriptTemplateEditor/Assets/ScriptTemplateEditor/Editor/ScriptTemplateEditor.cs:87 | A name matches iff it starts with two digits and '-' and has a ".txt" with no line break between index 3 and it. The capture is the prefix before the last such ".txt" (greedy `.*`). |
| Catalogs.Insert | ScriptTemplateEditor/Assets/ScriptTemplateEditor/Editor/ScriptTemplateEditor.cs:299-300 | Inserting adds the record's file name to the keys. Existing entries are never replaced, and a new key maps to the record. |
| Catalogs.ScanInto | ScriptTemplateEditor/Assets/ScriptTemplateEditor/Editor/ScriptTemplateEditor.cs:292-303 | The scan loop keeps every entry already in the catalog unchanged, and files every entry it adds under that record's own file name. |
| Catalogs.SearchTemplateFiles | ScriptTemplateEditor/Assets/ScriptTemplateEditor/Editor/ScriptTemplateEditor.cs:287-304 | Clearing and then scanning gives a catalog in which every entry is filed under its own file name. |
| Catalogs.ScanIntoFirstWins | ScriptTemplateEditor/Assets/ScriptTemplateEditor/Editor/ScriptTemplateEditor.cs:292-303 | Scanning from any catalog keeps the keys already present. Each new key gets the first decoded record with that file name. The scan stops at the first matching name that fails to decode. |
| Catalogs.SearchFirstWins | ScriptTemplateEditor/Assets/ScriptTemplateEditor/Editor/ScriptTemplateEditor.cs:287-304 | After clearing and scanning, each file name maps to the first decoded record with that file name, in directory order. The key set is exactly the set of decoded file names. The scan fails exactly when the list of decoded records does. |
| Catalogs.CollisionKeepsFirst | ScriptTemplateEditor/Assets/ScriptTemplateEditor/Editor/ScriptTemplateEditor.cs:299-300 | Of two files decoding to the same file name, only the first is listed. |
| Catalogs.CaptureGeneratedName | ScriptTemplateEditor/Assets/ScriptTemplateEditor/Editor/ScriptTemplateEditor.cs:87 | The pattern matches a generated name whose priority is 0..99 and whose parts have no line break. It captures exactly the name without ".txt". |
| Catalogs.ScanFindsGenerated | ScriptTemplateEditor/Assets/ScriptTemplateEditor/Editor/ScriptTemplateEditor.cs:287-304 | A generated file of an encodable record, scanned alone, yields exactly one entry. The entry is keyed by the marked file name and holds the decoded record. |
| Catalogs.WidePriorityNeverListed | ScriptTemplateEditor/Assets/ScriptTemplateEditor/Editor/ScriptTemplateEditor.cs:87 | A priority below 0 or above 99 renders as three or more characters before the '-', so the name never matches and the scan lists nothing. |
| Editor.PressCreate | ScriptTemplateEditor/Assets/ScriptTemplateEditor/Editor/ScriptTemplateEditor.cs:385-391 | A file is written iff the user is an administrator, creation is possible and title, file name and text are non-empty. The validation problems and the priority are those of `HasError`, so a negative priority becomes 0, and no other field changes. A written record's hierarchy is exactly the non-empty segments in their original order. The file is named from that record and holds the template's text. Exactly when a file is written, one notification of one time unit whose completion runs the given action is registered. |
| Editor.CreatedTemplateIsListed | ScriptTemplateEditor/Assets/ScriptTemplateEditor/Editor/ScriptTemplateEditor.cs:240-251 | A template created from typeable fields with priority below 100 is listed by a scan of a directory holding just that file. Its entry sits under its marked file name and has the clamped priority, the filtered hierarchy, the title and the text. |
| Editor.ReselectOverwritesSameFile | ScriptTemplateEditor/Assets/ScriptTemplateEditor/Editor/ScriptTemplateEditor.cs:41-50 | A C# template that the window created from typeable fields with priority below 100, reselected (the copy constructor) from a scan of a directory holding just that file, is written again under the same file name with the same contents. A hand-named file such as "05-a-b-c.cs.txt" may be re-written under another name. |
| Editor.CreateNotifies | ScriptTemplateEditor/Assets/ScriptTemplateEditor/Editor/ScriptTemplateEditor.cs:254-264 | After a create, the registered notification shows "テンプレートを作成しました" on its first advance. At the first advance one time unit or more later it hides the message and runs the completion action, and it does nothing else. |
| Routines.Completion | ScriptTemplateEditor/Assets/ScriptTemplateEditor/Editor/EditorWindowBase.cs:62-63 | A routine's final step runs at most one action. |
| Routines.Advance | ScriptTemplateEditor/Assets/ScriptTemplateEditor/Editor/EditorWindowBase.cs:76-95 | One `MoveNext` keeps the request. Advancing a finished routine is a no-op. It runs at most one action, and a routine still unfinished afterwards has run none. |
| Routines.DelayedCallTrace | ScriptTemplateEditor/Assets/ScriptTemplateEditor/Editor/EditorWindowBase.cs:76-84 | A delayed call runs its action exactly at the first advance where the time since its first advance reaches the duration. It is silent at every other advance. |
| Routines.ImmediateDelayedCall | ScriptTemplateEditor/Assets/ScriptTemplateEditor/Editor/EditorWindowBase.cs:80-83 | With duration <= 0, the action runs during the first advance, and the routine finishes. |
| Routines.NextFrameTrace | ScriptTemplateEditor/Assets/ScriptTemplateEditor/Editor/EditorWindowBase.cs:91-95 | A next-frame call runs its action on its second advance and on no other. |
| Routines.NotificationTrace | ScriptTemplateEditor/Assets/ScriptTemplateEditor/Editor/EditorWindowBase.cs:53-64 | A notification shows its message on its first advance. At the first advance where the duration has elapsed, it hides the message and then runs the optional action. Nothing else happens. |
| Routines.SuspendedTrace | ScriptTemplateEditor/Assets/ScriptTemplateEditor/Editor/EditorWindowBase.cs:80-82 | A suspended timed routine completes exactly at the first due advance and is silent otherwise. |
| Routines.FinishedTrace | ScriptTemplateEditor/Assets/ScriptTemplateEditor/Editor/EditorWindowBase.cs:27-29 | A finished routine left in the list stays silent at every later advance. |
| Routines.AtMostOnce | ScriptTemplateEditor/Assets/ScriptTemplateEditor/Editor/EditorWindowBase.cs:76-95 | Over any sequence of advances, a routine runs at most one action in total, and a finished one runs none. |
| WindowBase.AdvanceAll | ScriptTemplateEditor/Assets/ScriptTemplateEditor/Editor/EditorWindowBase.cs:24-30 | Each routine of the snapshot is advanced exactly once, in place. The update's effects are those of each routine advanced on its own, concatenated in list order. At most as many actions run as there are routines. |
| WindowBase.AdvanceAllInOrder | ScriptTemplateEditor/Assets/ScriptTemplateEditor/Editor/EditorWindowBase.cs:27-29 | The snapshot is walked in list order: the effects of a list are those of its front followed by those of its back. |
| WindowBase.Tick | ScriptTemplateEditor/Assets/ScriptTemplateEditor/Editor/EditorWindowBase.cs:24-30 | Routines present at the start are advanced once, in place, and the effects are exactly theirs in list order. Behind them come exactly the routines the actions that ran registered, in the order they ran, all not started. |
| WindowBase.RegisteredAdvancedNext | ScriptTemplateEditor/Assets/ScriptTemplateEditor/Editor/EditorWindowBase.cs:27-29 | Every routine registered during an update sits behind the snapshot, not started, and the next update gives it its first advance. |
| WindowBase.EditorUpdate | ScriptTemplateEditor/Assets/ScriptTemplateEditor/Editor/EditorWindowBase.cs:24-30 | An unsubscribed update does nothing. A subscribed update on the null list throws NullReference and changes nothing. A subscribed update on a live list does not fault, replaces the list by the ticked one and has the tick's effects. |
| WindowBase.Register | ScriptTemplateEditor/Assets/ScriptTemplateEditor/Editor/EditorWindowBase.cs:71-74 | Registering appends a not-started routine iff the list exists. On the null list it throws and leaves the state as it was. |
| WindowBase.OnDisable | ScriptTemplateEditor/Assets/ScriptTemplateEditor/Editor/EditorWindowBase.cs:17-22 | Afterwards the update is unsubscribed and the list is null. Disabling throws iff the list was already null. |
| WindowBase.OnEnableAsWritten | ScriptTemplateEditor/Assets/ScriptTemplateEditor/Editor/EditorWindowBase.cs:12-15 | Subscribes the update and leaves the list as it is, null included. |
| WindowBase.OnEnable | ScriptTemplateEditor/Assets/ScriptTemplateEditor/Editor/EditorWindowBase.cs:12-15 | Corrected: subscribes and guarantees a list, keeping an existing one. |
| WindowBase.ConsistentPreserved | ScriptTemplateEditor/Assets/ScriptTemplateEditor/Editor/EditorWindowBase.cs:10-22 | "Subscribed implies a list exists" holds initially. It is preserved by the corrected enable, by disable, by updates and by registration. A consistent update never throws. |
| WindowBase.ReopenAsWrittenFaults | ScriptTemplateEditor/Assets/ScriptTemplateEditor/Editor/EditorWindowBase.cs:17-27 | As written, the window can be disabled and enabled again without a script reload. Afterwards every update, every registration and the next disable throw NullReference. |
| WindowBase.ReopenWorks | ScriptTemplateEditor/Assets/ScriptTemplateEditor/Editor/EditorWindowBase.cs:12-22 | With the corrected enable, a reopened window has an empty list. Updates do nothing without fault, and registering works again. |
| WindowBase.DisableDiscardsPending | ScriptTemplateEditor/Assets/ScriptTemplateEditor/Editor/EditorWindowBase.cs:17-22 | Routines pending at disable never run. No update reaches them while the window is disabled, and enabling again starts from an empty list. |
| WindowBase.SpawnedWaitsForNextTick | ScriptTemplateEditor/Assets/ScriptTemplateEditor/Editor/EditorWindowBase.cs:27-29 | Take a next-frame call registered by a delayed call's action. It is not advanced in the update that registered it, and it runs two updates after the delayed call ran. |

## Left out

- File-system I/O is not modelled. This covers `Directory.GetFiles`, `ReadFile`, `File.WriteAllText`, `File.Delete`, directory creation and `AssetDatabase.Refresh`. The scan takes the listing as a sequence of names with their contents, and creation returns the file it would write.
- Deleting a template (`DeleteTemplate`) is left out: it is a confirmation dialog, a file deletion, a notification and a next-frame rescan. It registers both from GUI code, outside an update, so `WindowBase.Register` describes their registration. `Routines.NotificationTrace` describes the notification, which lasts one time unit and has no completion action. `Routines.NextFrameTrace` describes the rescan.
- `CheckAdministrator` and `CanCreate` read host or OS state, so they become the flags of `Editor.PressCreate`. `RestartEditor`, which starts a new editor process and exits the current one, only runs inside the completion action described on the next line.
- Editor.PressCreate: the completion action of the notification it registers (the restart dialog, then either a restart or a next-frame rescan) is an opaque action identifier. What it does is not modelled, and neither is the directory refresh.
- All GUI rendering is left out: `OnGUI`, `DrawSettingPanel`, `DrawTemplateList`, the help boxes, and the layout helpers under `EditorLayoutUtils`. Field edits are arbitrary inputs to the record.
- Catalogs.Capture: the pattern is applied to the name relative to the template directory. The lookbehind on the host path separator is left out, because it depends on how the host spells paths.
- Catalogs.Capture: `\d` is modelled as the ASCII digits. .NET's `\d` also matches other Unicode decimal digits, which `int.Parse` would then reject.
- FileNames.Decode: `int.Parse` is modelled only for two ASCII digits; anything else gives FormatError. The sign and whitespace forms that .NET also accepts never reach it, because the pattern only passes `\d\d` stubs.
- Strings are never null in the model, so "null or empty" is "empty".
- The copy constructor shares the `Hierarchy` list with the original. Immutable records cannot show this aliasing, so copying a record is the record itself.
- The order in which the GUI enumerates the catalog (`Dictionary` order) is left out. The catalog is a map.
- Time is left out in two ways. `timeSinceStartup` is a natural-number clock and durations are integers, so floating-point time and rounding are not modelled. The time at which an update fires is a parameter. Every routine in one update sees that same time, whereas each source routine reads `timeSinceStartup` itself, so routines advanced later in the same update may see a slightly later time.
- `StartCoroutine` with an arbitrary enumerator is left out. Only the three routine kinds the window creates are modelled.
- Several window-level behaviours are left out:
  - an action that throws, which would abort the rest of the update;
  - an action that closes the window during an update;
  - several windows sharing the static list.
- An action's other effects are left out. It is an identifier, and only the routines it registers are modelled.
- The decoding constructor never reads the script type from the name, and the model follows the code here. The type comes back as C#, as `FileNames.ReselectedTypeLost` shows.

## Findings

| source | as written | input that shows it | evidently intended | confidence | as-written member | corrected member |
|---|---|---|---|---|---|---|
| ScriptTemplateEditor/Assets/ScriptTemplateEditor/Editor/EditorWindowBase.cs:12-22 | `OnDisable` sets the static routine list to null, and `OnEnable` only re-subscribes the update without re-creating the list. | Close the window, then open it again in the same script domain: the first editor update calls `ToArray` on the null list and throws, and so does every later update and every `ShowNotification`/`DelayedCall`. | Reopening starts from a fresh, empty list. | not executed; follows from the two methods as written | WindowBase.ReopenAsWrittenFaults | WindowBase.ReopenWorks |

=== FILE: catalog.dfy ===
/**
 * `SearchTemplateFiles`: the catalog of saved templates, rebuilt from the
 * files of the template directory. Each file whose name matches the
 * pattern `(\d{2}-.*)\.txt` (anchored right after the directory) is decoded
 * and inserted under its file name unless that key is already present.
 * The directory listing and the file contents are parameters.
 */
module Catalogs {
  import opened Wrappers
  import opened Text
  import opened Templates
  import opened FileNames

  /** A file under the template directory: its path relative to that directory, and its text. */
  datatype TemplateFile = TemplateFile(name: string, text: string)

  // ---------------------------------------------------------------------------
  // The name pattern
  // ---------------------------------------------------------------------------

  /** The name opens with two digits and '-' (the `\d{2}-` of the pattern). */
  predicate StubHead(name: string) {
    |name| >= 3 && IsDigit(name[0]) && IsDigit(name[1]) && name[2] == '-'
  }

  /**
   * ".txt" starts at `j` and the `.*` before it, from index 3 on, crosses no
   * line break (the regex `.` does not match '\n').
   */
  predicate TxtEndAt(name: string, j: int) {
    3 <= j && j + 4 <= |name| && name[j..j + 4] == ".txt" && '\n' !in name[3..j]
  }

  /** The last position at or before `j` where the pattern can end (greedy `.*`). */
  function LastTxtEnd(name: string, j: int): (r: Option<nat>)
    ensures r.Some? ==> r.value <= j && TxtEndAt(name, r.value)
    ensures r.Some? ==> forall k :: r.value < k <= j ==> !TxtEndAt(name, k)
    ensures r.None? ==> forall k :: k <= j ==> !TxtEndAt(name, k)
    decreases j
  {
    if j < 3 then None
    else if TxtEndAt(name, j) then Some(j)
    else LastTxtEnd(name, j - 1)
  }

  /**
   * `Regex.Match(file, REGEX).Groups[1]` on the name relative to the
   * template directory: the stub before the last admissible ".txt", or
   * nothing when the name does not match.
   */
  function Capture(name: string): (stub: Option<string>)
    ensures stub.Some? <==> StubHead(name) && exists j :: TxtEndAt(name, j)
    ensures stub.Some? ==>
      && |stub.value| <= |name|
      && stub.value == name[..|stub.value|]
      && TxtEndAt(name, |stub.value|)
      && forall k :: TxtEndAt(name, k) ==> k <= |stub.value|
  {
    if !StubHead(name) then None
    else
      match LastTxtEnd(name, |name| - 4)
      case None => None
      case Some(j) => Some(name[..j])
  }

  // ---------------------------------------------------------------------------
  // The catalog
  // ---------------------------------------------------------------------------

  /** `_savedTemplateData`: saved templates keyed by their file name. */
  type Catalog = map<string, TemplateData>

  function Lookup(c: Catalog, key: string): Option<TemplateData> {
    if key in c then Some(c[key]) else None
  }

  /** `if (!ContainsKey(data.FileName)) Add(data.FileName, data)`: the first record under a key wins. */
  function Insert(c: Catalog, t: TemplateData): (r: Catalog)
    ensures r.Keys == c.Keys + {t.fileName}
    ensures forall k :: k in c ==> r[k] == c[k]
    ensures t.fileName !in c ==> r[t.fileName] == t
  {
    if t.fileName in c then c else c[t.fileName := t]
  }

  /**
   * The catalog after a scan, and the exception that cut the scan short, if
   * any: a name that matches the pattern but does not decode throws out of
   * the loop, leaving the entries inserted so far.
   */
  datatype ScanResult = ScanResult(catalog: Catalog, failure: Option<DecodeError>)

  /**
   * The loop of `SearchTemplateFiles` from catalog `c`: entries already
   * present stay as they are, and every entry it adds is filed under its own
   * file name.
   */
  function ScanInto(c: Catalog, files: seq<TemplateFile>): (r: ScanResult)
    ensures c.Keys <= r.catalog.Keys
    ensures forall k :: k in c ==> r.catalog[k] == c[k]
    ensures forall k :: k in r.catalog && k !in c ==> r.catalog[k].fileName == k
    decreases |files|
  {
    if |files| == 0 then ScanResult(c, None)
    else
      match Capture(files[0].name)
      case None => ScanInto(c, files[1..])
      case Some(stub) =>
        match Decode(stub, files[0].text)
        case Failure(e) => ScanResult(c, Some(e))
        case Success(t) => ScanInto(Insert(c, t), files[1..])
  }

  /** `SearchTemplateFiles`: clear the catalog, then scan the directory listing in order. */
  function SearchTemplateFiles(files: seq<TemplateFile>): (r: ScanResult)
    ensures forall k :: k in r.catalog ==> r.catalog[k].fileName == k
  {
    ScanInto(map[], files)
  }

  // ---------------------------------------------------------------------------
  // Reference definition: the list of decoded records
  // ---------------------------------------------------------------------------

  /** The records the matching files decode to, in directory order, up to the first failure. */
  datatype Listing = Listing(records: seq<TemplateData>, failure: Option<DecodeError>)

  function Listed(files: seq<TemplateFile>): Listing
    decreases |files|
  {
    if |files| == 0 then Listing([], None)
    else if Capture(files[0].name).None? then Listed(files[1..])
    else
      var d := Decode(Capture(files[0].name).value, files[0].text);
      if d.Failure? then Listing([], Some(d.error))
      else
        var rest := Listed(files[1..]);
        Listing([d.value] + rest.records, rest.failure)
  }

  /** The position of the earliest record of `records` filed under `key`. */
  function FirstIndex(records: seq<TemplateData>, key: string): (r: Option<nat>)
    ensures r.Some? ==> r.value < |records| && records[r.value].fileName == key
    ensures r.Some? ==> forall j :: 0 <= j < r.value ==> records[j].fileName != key
    ensures r.None? ==> forall j :: 0 <= j < |records| ==> records[j].fileName != key
  {
    if |records| == 0 then None
    else if records[0].fileName == key then Some(0)
    else
      match FirstIndex(records[1..], key)
      case None => None
      case Some(i) => Some(i + 1)
  }

  /** The earliest record of `records` filed under `key`. */
  function FirstWith(records: seq<TemplateData>, key: string): Option<TemplateData> {
    match FirstIndex(records, key)
    case None => None
    case Some(i) => Some(records[i])
  }

  /** The earliest record of a list is its head when the head's name is the key. */
  lemma FirstWithCons(t: TemplateData, rest: seq<TemplateData>, key: string)
    ensures FirstWith([t] + rest, key) == if t.fileName == key then Some(t) else FirstWith(rest, key)
  {
    var recs := [t] + rest;
    assert recs[0] == t && recs[1..] == rest;
  }

  /** The scan from any starting catalog: old keys stay, new keys get their first decoded record. */
  lemma {:induction false} ScanIntoFirstWins(c: Catalog, files: seq<TemplateFile>)
    ensures ScanInto(c, files).failure == Listed(files).failure
    ensures forall key :: (Lookup(ScanInto(c, files).catalog, key)
      == if key in c then Some(c[key]) else FirstWith(Listed(files).records, key))
    decreases |files|
  {
    if |files| > 0 {
      var cap := Capture(files[0].name);
      if cap.Some? {
        var d := Decode(cap.value, files[0].text);
        if d.Success? {
          var t := d.value;
          var c1 := Insert(c, t);
          ScanIntoFirstWins(c1, files[1..]);
          var recs := Listed(files).records;
          assert recs == [t] + Listed(files[1..]).records;
          assert recs[1..] == Listed(files[1..]).records;
          assert ScanInto(c, files) == ScanInto(c1, files[1..]);
          forall key
            ensures Lookup(ScanInto(c, files).catalog, key)
              == if key in c then Some(c[key]) else FirstWith(recs, key)
          {
            FirstWithCons(t, recs[1..], key);
          }
        } else {
          assert ScanInto(c, files) == ScanResult(c, Some(d.error));
        }
      } else {
        assert ScanInto(c, files) == ScanInto(c, files[1..]);
        assert Listed(files) == Listed(files[1..]);
        ScanIntoFirstWins(c, files[1..]);
      }
    }
  }

  /**
   * The catalog holds, for every file name among the decoded records, the
   * first record with that name, and nothing else; the scan fails exactly
   * when some matching name before the end does not decode.
   */
  lemma SearchFirstWins(files: seq<TemplateFile>)
    ensures SearchTemplateFiles(files).failure == Listed(files).failure
    ensures forall key ::
      Lookup(SearchTemplateFiles(files).catalog, key) == FirstWith(Listed(files).records, key)
    ensures SearchTemplateFiles(files).catalog.Keys
      == set t | t in Listed(files).records :: t.fileName
  {
    ScanIntoFirstWins(map[], files);
    var c := SearchTemplateFiles(files).catalog;
    var recs := Listed(files).records;
    forall key | key in c ensures key in (set t | t in recs :: t.fileName) {
      assert Lookup(c, key).Some?;
    }
    forall key | key in (set t | t in recs :: t.fileName) ensures key in c {
      var t :| t in recs && t.fileName == key;
      assert FirstWith(recs, key).Some?;
      assert Lookup(c, key).Some?;
    }
  }

  /** Of two files that decode to the same file name, the catalog keeps the first. */
  lemma CollisionKeepsFirst(a: TemplateFile, b: TemplateFile, first: TemplateData, second: TemplateData)
    requires Capture(a.name).Some? && Decode(Capture(a.name).value, a.text) == Success(first)
    requires Capture(b.name).Some? && Decode(Capture(b.name).value, b.text) == Success(second)
    requires first.fileName == second.fileName
    ensures SearchTemplateFiles([a, b]) == ScanResult(map[first.fileName := first], None)
  {
    var one := Insert(map[], first);
    assert one == map[first.fileName := first];
    assert Insert(one, second) == one;
    assert [a, b][1..] == [b];
    assert [b][1..] == [];
    assert ScanInto(one, [b]) == ScanInto(one, []);
    assert ScanInto(map[], [a, b]) == ScanInto(one, [b]);
  }

  // ---------------------------------------------------------------------------
  // Generated files are found again
  // ---------------------------------------------------------------------------

  predicate SingleLine(s: string) {
    '\n' !in s
  }

  lemma {:induction false} PrefixSingleLine(h: seq<string>)
    requires forall i :: 0 <= i < |h| ==> SingleLine(h[i])
    ensures SingleLine(HierarchyPrefix(h))
  {
    if |h| > 0 {
      PrefixSingleLine(h[1..]);
    }
  }

  /**
   * The pattern matches a generated name of a two-digit priority whose parts
   * have no line break, and captures exactly the name without ".txt".
   */
  lemma CaptureGeneratedName(t: TemplateData)
    requires 0 <= t.priority < 100
    requires SingleLine(t.menuTitle) && SingleLine(t.fileName)
    requires forall i :: 0 <= i < |t.hierarchy| ==> SingleLine(t.hierarchy[i])
    ensures var name := GeneratedFileName(t);
      Capture(name) == Some(name[..|name| - 4])
  {
    var name := GeneratedFileName(t);
    var pt := PriorityText(t.priority);
    var marked := MarkedFileName(t.fileName, t.scriptType);
    GeneratedStubParts(t);
    PrefixSingleLine(t.hierarchy);
    SuffixShape(t.scriptType);
    assert SingleLine(marked);
    var rest := HierarchyPrefix(t.hierarchy) + (t.menuTitle + "-" + marked);
    assert SingleLine(rest);
    assert name[3..|name| - 4] == rest;
    assert TxtEndAt(name, |name| - 4);
    assert StubHead(name);
  }

  /**
   * A template generated from a record the codec can represent, alone in the
   * directory, is listed under its marked file name with the decoded record.
   */
  lemma ScanFindsGenerated(t: TemplateData, text: string)
    requires Encodable(t)
    requires SingleLine(t.menuTitle) && SingleLine(t.fileName)
    requires forall i :: 0 <= i < |t.hierarchy| ==> SingleLine(t.hierarchy[i])
    ensures var name := GeneratedFileName(t);
      var key := MarkedFileName(t.fileName, t.scriptType);
      SearchTemplateFiles([TemplateFile(name, text)])
        == ScanResult(map[key := TemplateData(name, t.priority, t.menuTitle, key, t.hierarchy, text, Csharp)], None)
  {
    var name := GeneratedFileName(t);
    var key := MarkedFileName(t.fileName, t.scriptType);
    var d := TemplateData(name, t.priority, t.menuTitle, key, t.hierarchy, text, Csharp);
    var files := [TemplateFile(name, text)];
    CaptureGeneratedName(t);
    DecodeGeneratedName(t, text);
    assert Capture(files[0].name) == Some(name[..|name| - 4]);
    assert Decode(name[..|name| - 4], text) == Success(d);
    assert files[1..] == [];
    assert ScanInto(map[], files) == ScanInto(Insert(map[], d), []);
  }

  /**
   * A priority outside 0..99 renders as three or more characters before the
   * '-', so the pattern's `\d{2}-` never matches: such a template is written
   * but never listed.
   */
  lemma WidePriorityNeverListed(t: TemplateData, text: string)
    requires t.priority < 0 || t.priority >= 100
    ensures Capture(GeneratedFileName(t)).None?
    ensures SearchTemplateFiles([TemplateFile(GeneratedFileName(t), text)]) == ScanResult(map[], None)
  {
    var name := GeneratedFileName(t);
    var pt := PriorityText(t.priority);
    assert name[..|pt| + 1] == pt + "-";
    assert |pt| >= 3;
    if t.priority < 0 {
      assert name[0] == pt[0] == '-';
    } else {
      assert name[2] == pt[2];
      assert IsDigit(pt[2]);
    }
    assert !StubHead(name);
    var files := [TemplateFile(name, text)];
    assert files[1..] == [];
    assert ScanInto(map[], files) == ScanInto(map[], []);
  }
}

=== FILE: editor.dfy ===
/**
 * The "create" button of the editor window: `HasError` guards it, and
 * `GenerateTemplate` filters the hierarchy and writes the template text
 * under the generated file name. The host state the button also depends on
 * (administrator rights, play mode, compilation) comes in as flags.
 */
module Editor {
  import opened Wrappers
  import opened Text
  import opened Templates
  import opened FileNames
  import opened Catalogs
  import Routines

  /** A file written into the template directory: its name there and its whole contents. */
  datatype GeneratedFile = GeneratedFile(name: string, content: string)

  /**
   * One pass of the create button: the record as the window holds it
   * afterwards, the validation problems shown, and the file written when the
   * button was enabled and pressed.
   */
  datatype CreateOutcome = CreateOutcome(
    record: TemplateData,
    problems: seq<Problem>,
    written: Option<GeneratedFile>,
    registered: seq<Routines.Request>)

  /** The toast shown once a template has been written ("the template has been created"). */
  const CreatedMessage: string := "テンプレートを作成しました"

  /**
   * The button is enabled when validation passes, the user is an
   * administrator and the editor is neither playing nor compiling
   * (`canCreate`); pressing it runs `GenerateTemplate` on the validated
   * record: empty hierarchy segments are dropped, then the text is written
   * under the generated name, and a one-second notification is registered
   * whose completion runs `onComplete` (the restart dialog and rescan).
   */
  function PressCreate(t: TemplateData, isAdministrator: bool, canCreate: bool, onComplete: Routines.ActionId): (r: CreateOutcome)
    ensures r.written.Some? <==>
      isAdministrator && canCreate && t.menuTitle != "" && t.fileName != "" && t.text != ""
    ensures r.problems == HasError(t).problems
    ensures r.record.priority == HasError(t).record.priority
    ensures r.record.priority >= 0 && (t.priority >= 0 ==> r.record.priority == t.priority)
    ensures r.record.(priority := t.priority, hierarchy := t.hierarchy) == t
    ensures r.written.None? ==> r.record.hierarchy == t.hierarchy
    ensures r.written.Some? ==>
      && (forall i :: 0 <= i < |r.record.hierarchy| ==> r.record.hierarchy[i] != "")
      && multiset(r.record.hierarchy) == multiset(t.hierarchy)["" := 0]
      && r.record.hierarchy == NonEmpty(t.hierarchy)
      && r.written.value == GeneratedFile(GeneratedFileName(r.record), t.text)
    ensures r.written.None? ==> r.registered == []
    ensures r.written.Some? ==> r.registered == [Routines.Notification(CreatedMessage, 1, Some(onComplete))]
  {
    var v := HasError(t);
    if v.HasError() || !isAdministrator || !canCreate then
      CreateOutcome(v.record, v.problems, None, [])
    else
      var record := v.record.(hierarchy := NonEmpty(v.record.hierarchy));
      CreateOutcome(record, v.problems, Some(GeneratedFile(GeneratedFileName(record), record.text)),
        [Routines.Notification(CreatedMessage, 1, Some(onComplete))])
  }

  /** What the user may type so that the generated name reads back: separator-free, single-line parts. */
  predicate Typeable(s: string) {
    Plain(s) && SingleLine(s)
  }

  /**
   * A template created from the window is listed by the next scan of a
   * directory holding just that file, under its marked file name, with the
   * clamped priority, the filtered hierarchy, the title and the text.
   */
  lemma {:induction false} CreatedTemplateIsListed(t: TemplateData, onComplete: Routines.ActionId)
    requires t.priority < 100
    requires t.menuTitle != "" && Typeable(t.menuTitle)
    requires t.fileName != "" && Typeable(t.fileName)
    requires t.text != ""
    requires forall i :: 0 <= i < |t.hierarchy| ==> Typeable(t.hierarchy[i])
    ensures var out := PressCreate(t, true, true, onComplete);
      var key := MarkedFileName(t.fileName, t.scriptType);
      var p := if t.priority < 0 then 0 else t.priority;
      SearchTemplateFiles([TemplateFile(out.written.value.name, out.written.value.content)])
        == ScanResult(map[key := TemplateData(
             out.written.value.name, p, t.menuTitle, key, NonEmpty(t.hierarchy), t.text, Csharp)], None)
  {
    var out := PressCreate(t, true, true, onComplete);
    var r := out.record;
    forall i | 0 <= i < |r.hierarchy| ensures r.hierarchy[i] != "" && Typeable(r.hierarchy[i]) {
      NonEmptyMember(t.hierarchy, i);
    }
    assert Encodable(r);
    ScanFindsGenerated(r, t.text);
  }

  /**
   * A C# template the window created, listed alone and selected again (the
   * copy constructor), is written again over the very file it was read
   * from, with its text.
   */
  lemma {:induction false} ReselectOverwritesSameFile(t: TemplateData, onComplete: Routines.ActionId)
    requires t.scriptType == Csharp
    requires t.priority < 100
    requires t.menuTitle != "" && Typeable(t.menuTitle)
    requires t.fileName != "" && Typeable(t.fileName)
    requires t.text != ""
    requires forall i :: 0 <= i < |t.hierarchy| ==> Typeable(t.hierarchy[i])
    ensures var written := PressCreate(t, true, true, onComplete).written.value;
      var catalog := SearchTemplateFiles([TemplateFile(written.name, written.content)]).catalog;
      var key := MarkedFileName(t.fileName, t.scriptType);
      key in catalog && PressCreate(catalog[key], true, true, onComplete).written == Some(written)
  {
    var out := PressCreate(t, true, true, onComplete);
    var r := out.record;
    var written := out.written.value;
    CreatedTemplateIsListed(t, onComplete);
    forall i | 0 <= i < |r.hierarchy| ensures r.hierarchy[i] != "" && Typeable(r.hierarchy[i]) {
      NonEmptyMember(t.hierarchy, i);
    }
    RegenerateSameName(r, t.text);
    DecodeGeneratedName(r, t.text);
    var key := MarkedFileName(t.fileName, t.scriptType);
    var selected := SearchTemplateFiles([TemplateFile(written.name, written.content)]).catalog[key];
    assert selected == Decode(written.name[..|written.name| - 4], t.text).value;
    assert selected.(scriptType := Csharp) == selected;
    assert NonEmpty(selected.hierarchy) == selected.hierarchy;
  }

  /**
   * After a successful create, the registered notification shows its message
   * on its first advance and, at the first advance one time unit or more
   * later, hides it and runs `onComplete` exactly then.
   */
  lemma CreateNotifies(t: TemplateData, onComplete: Routines.ActionId, times: seq<nat>)
    requires PressCreate(t, true, true, onComplete).written.Some?
    ensures var reg := PressCreate(t, true, true, onComplete).registered;
      |reg| == 1 && forall k :: 0 <= k < |times| ==>
        Routines.Trace(Routines.Launch(reg[0]), times)[k]
          == (if k == 0 then [Routines.Shown(CreatedMessage)] else [])
             + (if Routines.FirstDue(times, times[0], 1, k) then [Routines.Hidden, Routines.Ran(onComplete)] else [])
  {
    Routines.NotificationTrace(CreatedMessage, 1, Some(onComplete), times);
  }
}

=== FILE: filename.dfy ===
/**
 * The template file-name codec of `ScriptTemplateEditor`.
 *
 * Encoding (`GENERATE_FILE_NAME`) writes
 *   `{priority:D2}-{segment}__...{segment}__{menuTitle}-{fileName}{marker}.txt`
 * and decoding (the `TemplateData(string fileName, string text)` constructor)
 * reads a name stub (the name without ".txt") back: two characters of
 * priority, one skipped character, then the rest split on "__" and "-" with
 * empty pieces dropped, the last two pieces being menu title and file name.
 */
module FileNames {
  import opened Wrappers
  import opened Text
  import opened Templates

  // ---------------------------------------------------------------------------
  // Encoding
  // ---------------------------------------------------------------------------

  /** A natural number with at least two digits, zero-padded. */
  function Pad2(n: nat): (s: string)
    ensures AllDigits(s) && |s| >= 2
    ensures |s| == 2 <==> n < 100
    ensures |s| > 2 ==> s[0] != '0'
    ensures ParseDecimal(s) == n
  {
    if n < 10 then
      var s := ['0', DigitChar(n)];
      assert s[..1] == ['0'] && ['0'][..0] == [];
      assert ParseDecimal(['0']) == 0;
      DigitValueOfChar(n);
      s
    else
      ParseDecimalOfDecimal(n);
      Decimal(n)
  }

  /**
   * The .NET format `{0:D2}`: the decimal value with at least two digits,
   * zero-padded, and a leading '-' for a negative value. Exactly two digits
   * come out only for 0..99.
   */
  function PriorityText(p: int): (s: string)
    ensures p >= 0 ==> AllDigits(s) && |s| >= 2 && ParseDecimal(s) == p
    ensures AllDigits(s) && |s| == 2 <==> 0 <= p < 100
    ensures p < 0 ==> |s| >= 3 && s[0] == '-' && s[1..] == Pad2(-p)
    ensures p >= 0 ==> s == Pad2(p)
  {
    if p < 0 then "-" + Pad2(-p) else Pad2(p)
  }

  /** Two digits read back with `int.Parse` render again as the same two digits. */
  lemma TwoDigitPriority(s: string)
    requires AllDigits(s) && |s| == 2
    ensures ParseDecimal(s) < 100
    ensures PriorityText(ParseDecimal(s)) == s
  {
    assert s[..1][..0] == [];
    var a, b := DigitValue(s[0]), DigitValue(s[1]);
    assert ParseDecimal(s[..1]) == a;
    assert ParseDecimal(s) == 10 * a + b;
    DigitCharOfValue(s[0]);
    DigitCharOfValue(s[1]);
    assert ParseDecimal(s) < 100;
    if a == 0 {
      assert s == ['0', DigitChar(b)];
      assert PriorityText(b) == Pad2(b);
    } else {
      var n := 10 * a + b;
      assert n / 10 == a && n % 10 == b;
      assert Decimal(n) == Decimal(a) + [DigitChar(b)];
    }
  }

  /** Every hierarchy segment followed by "__", in order. */
  function HierarchyPrefix(h: seq<string>): string {
    if |h| == 0 then "" else h[0] + "__" + HierarchyPrefix(h[1..])
  }

  /**
   * The file name with the type marker appended unless the name already
   * contains the marker somewhere (a substring test, not an ends-with test).
   */
  function MarkedFileName(fileName: string, ty: ScriptType): (r: string)
    ensures Contains(r, TypeToString(ty))
    ensures r == fileName <==> Contains(fileName, TypeToString(ty))
    ensures r != fileName ==> r == fileName + TypeToString(ty)
  {
    var suffix := TypeToString(ty);
    if Contains(fileName, suffix) then fileName
    else
      ContainsAtEnd(fileName, suffix);
      fileName + suffix
  }

  /** `GENERATE_FILE_NAME`: the on-disk name of a template. */
  function GeneratedFileName(t: TemplateData): (name: string)
    ensures |name| >= |PriorityText(t.priority)| + |t.fileName| + 6 && |name| >= 8
    ensures name[|name| - 4..] == ".txt"
    ensures name[..|PriorityText(t.priority)| + 1] == PriorityText(t.priority) + "-"
    ensures Contains(name[..|name| - 4], TypeToString(t.scriptType))
    ensures Contains(t.fileName, TypeToString(t.scriptType)) ==>
      name[|name| - 5 - |t.fileName|..] == "-" + t.fileName + ".txt"
  {
    var pt := PriorityText(t.priority);
    var marked := MarkedFileName(t.fileName, t.scriptType);
    var title := pt + "-" + HierarchyPrefix(t.hierarchy) + t.menuTitle;
    var head := title + "-";
    var stub := head + marked;
    ContainsAfterPrefix(head, marked, TypeToString(t.scriptType));
    var name := stub + ".txt";
    assert |title| >= |pt| + 1 && title[..|pt| + 1] == pt + "-";
    NameLayout(pt, title, marked);
    assert |marked| >= |t.fileName|;
    assert Contains(t.fileName, TypeToString(t.scriptType)) ==> marked == t.fileName;
    name
  }

  /** Where the parts of `title + "-" + marked + ".txt"` sit, for a title starting with `pt + "-"`. */
  lemma NameLayout(pt: string, title: string, marked: string)
    requires |title| >= |pt| + 1 && title[..|pt| + 1] == pt + "-"
    ensures var name := title + "-" + marked + ".txt";
      && |name| == |title| + |marked| + 5
      && name[|name| - 4..] == ".txt"
      && name[..|pt| + 1] == pt + "-"
      && name[..|name| - 4] == title + "-" + marked
      && name[|name| - 5 - |marked|..] == "-" + marked + ".txt"
  {
    var name := title + "-" + marked + ".txt";
    assert name[..|pt| + 1] == title[..|pt| + 1];
    assert name[|title|..] == "-" + marked + ".txt";
  }

  // ---------------------------------------------------------------------------
  // Decoding
  // ---------------------------------------------------------------------------

  /**
   * `string.Split(new[] { "__", "-" }, None)` scanning left to right:
   * `piece` is the text gathered since the last separator.
   */
  function SplitFrom(s: string, piece: string): (pieces: seq<string>)
    ensures |pieces| >= 1
    decreases |s|
  {
    if |s| == 0 then [piece]
    else if |s| >= 2 && s[0] == '_' && s[1] == '_' then [piece] + SplitFrom(s[2..], "")
    else if s[0] == '-' then [piece] + SplitFrom(s[1..], "")
    else SplitFrom(s[1..], piece + [s[0]])
  }

  /** The separators the splitter consumes on `s`, left to right. */
  function SeparatorsOf(s: string): (seps: seq<string>)
    ensures forall i :: 0 <= i < |seps| ==> Separator(seps[i])
    decreases |s|
  {
    if |s| == 0 then []
    else if |s| >= 2 && s[0] == '_' && s[1] == '_' then ["__"] + SeparatorsOf(s[2..])
    else if s[0] == '-' then ["-"] + SeparatorsOf(s[1..])
    else SeparatorsOf(s[1..])
  }

  predicate EndsInUnderscore(w: string) {
    |w| > 0 && w[|w| - 1] == '_'
  }

  /**
   * Leftmost matching: a piece cut off by "__" never ends in '_', since the
   * "__" would then have started one character earlier.
   */
  predicate Leftmost(ws: seq<string>, seps: seq<string>)
    requires |ws| == |seps| + 1
  {
    forall i :: 0 <= i < |seps| && seps[i] == "__" ==> !EndsInUnderscore(ws[i])
  }

  /** No two '_' in a row: the index form of "does not contain "__"". */
  predicate NoDoubleUnderscore(p: string) {
    forall i :: 0 <= i < |p| - 1 ==> !(p[i] == '_' && p[i + 1] == '_')
  }

  lemma {:induction false} NoDoubleUnderscoreContains(p: string)
    requires NoDoubleUnderscore(p)
    ensures !Contains(p, "__")
    decreases |p|
  {
    if |p| >= 2 {
      assert p[..2] == [p[0], p[1]];
      assert NoDoubleUnderscore(p[1..]) by {
        forall i | 0 <= i < |p[1..]| - 1 ensures !(p[1..][i] == '_' && p[1..][i + 1] == '_') {
          assert p[1..][i] == p[i + 1] && p[1..][i + 1] == p[i + 2];
        }
      }
      NoDoubleUnderscoreContains(p[1..]);
    }
  }

  /**
   * The splitter cuts at every separator: started on a clean piece (one that
   * cannot end in half of a "__" still to come), every piece it returns is
   * free of '-' and of "__".
   */
  lemma {:induction false} SplitClean(s: string, piece: string)
    requires '-' !in piece && NoDoubleUnderscore(piece)
    requires |piece| > 0 && piece[|piece| - 1] == '_' && |s| > 0 ==> s[0] != '_'
    ensures forall k :: 0 <= k < |SplitFrom(s, piece)| ==>
      '-' !in SplitFrom(s, piece)[k] && NoDoubleUnderscore(SplitFrom(s, piece)[k])
    decreases |s|
  {
    if |s| == 0 {
    } else if |s| >= 2 && s[0] == '_' && s[1] == '_' {
      SplitClean(s[2..], "");
    } else if s[0] == '-' {
      SplitClean(s[1..], "");
    } else {
      var next := piece + [s[0]];
      assert NoDoubleUnderscore(next) by {
        forall i | 0 <= i < |next| - 1 ensures !(next[i] == '_' && next[i + 1] == '_') {
          if i < |piece| - 1 {
            assert next[i] == piece[i] && next[i + 1] == piece[i + 1];
          }
        }
      }
      SplitClean(s[1..], next);
    }
  }

  lemma FilteredClean(raw: seq<string>)
    requires forall k :: 0 <= k < |raw| ==> '-' !in raw[k] && NoDoubleUnderscore(raw[k])
    ensures forall i :: 0 <= i < |NonEmpty(raw)| ==>
      '-' !in NonEmpty(raw)[i] && !Contains(NonEmpty(raw)[i], "__")
  {
    forall i | 0 <= i < |NonEmpty(raw)|
      ensures '-' !in NonEmpty(raw)[i] && !Contains(NonEmpty(raw)[i], "__")
    {
      NonEmptyMember(raw, i);
      NoDoubleUnderscoreContains(NonEmpty(raw)[i]);
    }
  }

  /**
   * The same split with `StringSplitOptions.RemoveEmptyEntries`: non-empty
   * pieces none of which holds a separator.
   */
  function Pieces(s: string): (pieces: seq<string>)
    ensures forall i :: 0 <= i < |pieces| ==> pieces[i] != ""
    ensures forall i :: 0 <= i < |pieces| ==> '-' !in pieces[i] && !Contains(pieces[i], "__")
  {
    SplitClean(s, "");
    FilteredClean(SplitFrom(s, ""));
    NonEmpty(SplitFrom(s, ""))
  }

  /** The exceptions the decoding constructor can throw. */
  datatype DecodeError =
    | ArgumentOutOfRange   // `Substring(0, 2)` or `Remove(0, 3)` on a stub shorter than three characters
    | FormatError          // `int.Parse` on the first two characters
    | IndexOutOfRange      // fewer than two pieces for menu title and file name

  /**
   * `new TemplateData(stub, text)`: parse a name stub (the file name without
   * ".txt"). The script type is not read from the name: it keeps its
   * initialiser, `Csharp`.
   */
  function Decode(stub: string, text: string): (r: Result<TemplateData, DecodeError>)
    ensures |stub| < 3 ==> r == Failure(ArgumentOutOfRange)
    ensures |stub| >= 3 && !AllDigits(stub[..2]) ==> r == Failure(FormatError)
    ensures |stub| >= 3 && AllDigits(stub[..2]) && |Pieces(stub[3..])| < 2 ==> r == Failure(IndexOutOfRange)
    ensures r.Success? <==>
      |stub| >= 3 && AllDigits(stub[..2]) && |Pieces(stub[3..])| >= 2
    ensures r.Success? ==>
      && r.value.fullName == stub + ".txt"
      && 0 <= r.value.priority < 100
      && PriorityText(r.value.priority) == stub[..2]
      && r.value.hierarchy + [r.value.menuTitle, r.value.fileName] == Pieces(stub[3..])
      && r.value.text == text
      && r.value.scriptType == Csharp
  {
    if |stub| < 3 then Failure(ArgumentOutOfRange)
    else if !AllDigits(stub[..2]) then Failure(FormatError)
    else
      var pieces := Pieces(stub[3..]);
      if |pieces| < 2 then Failure(IndexOutOfRange)
      else
        TwoDigitPriority(stub[..2]);
        var n := |pieces|;
        assert pieces[..n - 2] + [pieces[n - 2], pieces[n - 1]] == pieces;
        Success(TemplateData(
          stub + ".txt", ParseDecimal(stub[..2]), pieces[n - 2], pieces[n - 1],
          pieces[..n - 2], text, Csharp))
  }

  // ---------------------------------------------------------------------------
  // Round trip
  // ---------------------------------------------------------------------------

  /** No character the splitter treats as (part of) a separator. */
  predicate Plain(s: string) {
    forall i :: 0 <= i < |s| ==> s[i] != '-' && s[i] != '_'
  }

  /**
   * The records whose names decode back: a two-digit priority, a filtered
   * hierarchy, and non-empty separator-free segments, title and file name.
   */
  predicate Encodable(t: TemplateData) {
    && 0 <= t.priority < 100
    && t.menuTitle != "" && Plain(t.menuTitle)
    && t.fileName != "" && Plain(t.fileName)
    && forall i :: 0 <= i < |t.hierarchy| ==> t.hierarchy[i] != "" && Plain(t.hierarchy[i])
  }

  lemma {:induction false} SplitPlain(w: string, rest: string, piece: string)
    requires Plain(w)
    ensures SplitFrom(w + rest, piece) == SplitFrom(rest, piece + w)
  {
    if |w| > 0 {
      var s := w + rest;
      assert s[0] == w[0];
      assert s[1..] == w[1..] + rest;
      assert piece + [w[0]] + w[1..] == piece + w;
      SplitPlain(w[1..], rest, piece + [w[0]]);
    } else {
      assert w + rest == rest;
      assert piece + w == piece;
    }
  }

  lemma {:induction false} SplitHierarchy(h: seq<string>, rest: string)
    requires forall i :: 0 <= i < |h| ==> Plain(h[i])
    ensures SplitFrom(HierarchyPrefix(h) + rest, "") == h + SplitFrom(rest, "")
  {
    if |h| > 0 {
      var tail := HierarchyPrefix(h[1..]) + rest;
      assert HierarchyPrefix(h) + rest == h[0] + ("__" + tail);
      SplitPlain(h[0], "__" + tail, "");
      assert "" + h[0] == h[0];
      var sep := "__" + tail;
      assert |sep| >= 2 && sep[0] == '_' && sep[1] == '_';
      assert sep[2..] == tail;
      assert SplitFrom(sep, h[0]) == [h[0]] + SplitFrom(tail, "");
      SplitHierarchy(h[1..], rest);
      assert h == [h[0]] + h[1..];
    } else {
      assert HierarchyPrefix(h) + rest == rest;
    }
  }

  lemma SplitTitleAndFile(title: string, file: string)
    requires Plain(title) && Plain(file)
    ensures SplitFrom(title + "-" + file, "") == [title, file]
  {
    assert title + "-" + file == title + ("-" + file);
    SplitPlain(title, "-" + file, "");
    assert "" + title == title;
    assert ("-" + file)[1..] == file;
    assert SplitFrom("-" + file, title) == [title] + SplitFrom(file, "");
    SplitPlain(file, "", "");
    assert file + "" == file;
    assert "" + file == file;
    assert SplitFrom(file, "") == [file];
  }

  /** The stub of a generated name, spelled out part by part. */
  lemma GeneratedStubParts(t: TemplateData)
    ensures var name := GeneratedFileName(t);
      name[..|name| - 4] == PriorityText(t.priority) + "-"
        + (HierarchyPrefix(t.hierarchy) + (t.menuTitle + "-" + MarkedFileName(t.fileName, t.scriptType)))
  {
  }

  /** A generated name assembled from separately computed parts. */
  lemma GeneratedFromParts(t: TemplateData, pt: string, prefix: string, marked: string)
    requires PriorityText(t.priority) == pt && HierarchyPrefix(t.hierarchy) == prefix
    requires MarkedFileName(t.fileName, t.scriptType) == marked
    ensures GeneratedFileName(t) == pt + "-" + prefix + t.menuTitle + "-" + marked + ".txt"
  {
  }

  /** The pieces after the priority of a generated name: the segments, the title, the marked file name. */
  lemma {:induction false} GeneratedPieces(t: TemplateData)
    requires Encodable(t)
    ensures var name := GeneratedFileName(t);
      |name| >= 7 && Pieces(name[..|name| - 4][3..])
        == t.hierarchy + [t.menuTitle, MarkedFileName(t.fileName, t.scriptType)]
  {
    var name := GeneratedFileName(t);
    var marked := MarkedFileName(t.fileName, t.scriptType);
    var tail := t.menuTitle + "-" + marked;
    GeneratedStubParts(t);
    assert name[..|name| - 4][3..] == HierarchyPrefix(t.hierarchy) + tail;
    assert Plain(marked) by {
      SuffixShape(t.scriptType);
    }
    SplitTitleAndFile(t.menuTitle, marked);
    SplitHierarchy(t.hierarchy, tail);
    var raw := t.hierarchy + [t.menuTitle, marked];
    assert forall i :: 0 <= i < |raw| ==> raw[i] != "";
  }

  /** The separators `Split` cuts at. */
  predicate Separator(sep: string) {
    sep == "__" || sep == "-"
  }

  /** The pieces `ws` joined with `seps[i]` between `ws[i]` and `ws[i + 1]`. */
  function Join(ws: seq<string>, seps: seq<string>): string
    requires |ws| == |seps| + 1
    decreases |seps|
  {
    if |seps| == 0 then ws[0] else ws[0] + seps[0] + Join(ws[1..], seps[1..])
  }

  lemma {:induction false} SplitJoinFrom(ws: seq<string>, seps: seq<string>, piece: string)
    requires |ws| == |seps| + 1
    requires forall i :: 0 <= i < |ws| ==> Plain(ws[i])
    requires forall i :: 0 <= i < |seps| ==> Separator(seps[i])
    ensures SplitFrom(Join(ws, seps), piece) == [piece + ws[0]] + ws[1..]
    decreases |seps|
  {
    if |seps| == 0 {
      SplitPlain(ws[0], "", piece);
      assert ws[0] + "" == ws[0];
      assert ws[1..] == [];
    } else {
      var rest := Join(ws[1..], seps[1..]);
      var t := seps[0] + rest;
      assert Join(ws, seps) == ws[0] + t;
      SplitPlain(ws[0], t, piece);
      if seps[0] == "__" {
        assert t[2..] == rest;
      } else {
        assert t[1..] == rest;
      }
      assert SplitFrom(t, piece + ws[0]) == [piece + ws[0]] + SplitFrom(rest, "");
      SplitJoinFrom(ws[1..], seps[1..], "");
      assert "" + ws[1] == ws[1];
      assert [ws[1]] + ws[2..] == ws[1..];
    }
  }

  /**
   * Splitting undoes joining: non-empty pieces without '-' or '_', joined by
   * any mix of "__" and "-", split back into exactly those pieces, in order.
   */
  lemma SplitJoin(ws: seq<string>, seps: seq<string>)
    requires |ws| == |seps| + 1
    requires forall i :: 0 <= i < |ws| ==> ws[i] != "" && Plain(ws[i])
    requires forall i :: 0 <= i < |seps| ==> Separator(seps[i])
    ensures Pieces(Join(ws, seps)) == ws
  {
    SplitJoinFrom(ws, seps, "");
    assert "" + ws[0] == ws[0];
    assert [ws[0]] + ws[1..] == ws;
    var raw := SplitFrom(Join(ws, seps), "");
    assert raw == ws;
    assert NonEmpty(raw) == ws;
  }

  /** `ws`, with `seps` between them, spell `text`, and every cut is leftmost. */
  predicate Spells(ws: seq<string>, seps: seq<string>, text: string) {
    |ws| == |seps| + 1 && Join(ws, seps) == text && Leftmost(ws, seps)
  }

  /**
   * The splitter loses no text: its pieces, joined with the separators it
   * consumed, give back the input, and every cut is the leftmost one.
   */
  lemma {:induction false} SplitKeepsTextFrom(s: string, piece: string)
    requires EndsInUnderscore(piece) && |s| > 0 ==> s[0] != '_'
    ensures Spells(SplitFrom(s, piece), SeparatorsOf(s), piece + s)
    decreases |s|
  {
    if |s| == 0 {
      assert piece + s == piece;
    } else if |s| >= 2 && s[0] == '_' && s[1] == '_' {
      SplitKeepsTextFrom(s[2..], "");
      assert "" + s[2..] == s[2..];
      CutKeepsText(s, piece, "__");
    } else if s[0] == '-' {
      SplitKeepsTextFrom(s[1..], "");
      assert "" + s[1..] == s[1..];
      CutKeepsText(s, piece, "-");
    } else {
      var next := piece + [s[0]];
      assert EndsInUnderscore(next) && |s[1..]| > 0 ==> s[1..][0] != '_';
      SplitKeepsTextFrom(s[1..], next);
      ReadKeepsText(s, piece);
    }
  }

  /** Reading one ordinary character into the current piece. */
  lemma ReadKeepsText(s: string, piece: string)
    requires |s| > 0 && s[0] != '-' && !(|s| >= 2 && s[0] == '_' && s[1] == '_')
    requires Spells(SplitFrom(s[1..], piece + [s[0]]), SeparatorsOf(s[1..]), piece + [s[0]] + s[1..])
    ensures Spells(SplitFrom(s, piece), SeparatorsOf(s), piece + s)
  {
    assert SplitFrom(s, piece) == SplitFrom(s[1..], piece + [s[0]]);
    assert SeparatorsOf(s) == SeparatorsOf(s[1..]);
    MoveHead(piece, s);
  }

  lemma MoveHead(piece: string, s: string)
    requires |s| > 0
    ensures piece + [s[0]] + s[1..] == piece + s
  {
    assert [s[0]] + s[1..] == s;
  }

  lemma JoinCons(piece: string, ws: seq<string>, sep: string, seps: seq<string>, rest: string)
    requires |ws| == |seps| + 1 && Join(ws, seps) == rest
    ensures Join([piece] + ws, [sep] + seps) == piece + (sep + rest)
  {
    assert ([piece] + ws)[0] == piece && ([piece] + ws)[1..] == ws;
    assert ([sep] + seps)[0] == sep && ([sep] + seps)[1..] == seps;
  }

  /** Cutting a list of pieces after its head keeps the leftmost property of the tail. */
  lemma LeftmostCons(piece: string, ws: seq<string>, sep: string, seps: seq<string>)
    requires |ws| == |seps| + 1 && Leftmost(ws, seps)
    requires sep == "__" ==> !EndsInUnderscore(piece)
    ensures Leftmost([piece] + ws, [sep] + seps)
  {
    var ws', seps' := [piece] + ws, [sep] + seps;
    forall i | 0 <= i < |seps'| && seps'[i] == "__" ensures !EndsInUnderscore(ws'[i]) {
      if i > 0 {
        assert ws'[i] == ws[i - 1] && seps'[i] == seps[i - 1];
      }
    }
  }

  /** Cutting at a leading separator of `s`, given the statement for what follows it. */
  lemma CutKeepsText(s: string, piece: string, sep: string)
    requires Separator(sep) && |s| >= |sep| && s[..|sep|] == sep
    requires sep == "__" ==> !EndsInUnderscore(piece)
    requires Spells(SplitFrom(s[|sep|..], ""), SeparatorsOf(s[|sep|..]), s[|sep|..])
    ensures Spells(SplitFrom(s, piece), SeparatorsOf(s), piece + s)
  {
    var rest := s[|sep|..];
    var ws, seps := SplitFrom(rest, ""), SeparatorsOf(rest);
    if sep == "__" {
      assert s[0] == '_' && s[1] == '_';
    } else {
      assert s[0] == '-';
    }
    assert SplitFrom(s, piece) == [piece] + ws;
    assert SeparatorsOf(s) == [sep] + seps;
    JoinCons(piece, ws, sep, seps, rest);
    assert sep + rest == s;
    LeftmostCons(piece, ws, sep, seps);
  }

  /**
   * `Split` on "__" and "-" as a decomposition of its input: the pieces,
   * separators between them, put back together, are the input; no piece
   * holds a separator; every cut is leftmost; and `Pieces` keeps the
   * non-empty ones in order.
   */
  lemma SplitKeepsText(s: string)
    ensures var ws, seps := SplitFrom(s, ""), SeparatorsOf(s);
      && |ws| == |seps| + 1
      && Join(ws, seps) == s
      && Leftmost(ws, seps)
      && (forall k :: 0 <= k < |ws| ==> '-' !in ws[k] && NoDoubleUnderscore(ws[k]))
      && Pieces(s) == NonEmpty(ws)
  {
    SplitKeepsTextFrom(s, "");
    SplitClean(s, "");
    assert "" + s == s;
  }

  lemma NoDoubleUnderscoreTail(w: string)
    requires |w| > 0 && NoDoubleUnderscore(w)
    ensures NoDoubleUnderscore(w[1..])
  {
    forall i | 0 <= i < |w[1..]| - 1 ensures !(w[1..][i] == '_' && w[1..][i + 1] == '_') {
      assert w[1..][i] == w[i + 1] && w[1..][i + 1] == w[i + 2];
    }
  }

  /**
   * A separator-free word is read through whole, provided it is not ended
   * by a '_' that starts a "__" together with what follows.
   */
  lemma {:induction false} SplitWord(w: string, rest: string, piece: string)
    requires '-' !in w && NoDoubleUnderscore(w)
    requires EndsInUnderscore(w) && |rest| > 0 ==> rest[0] != '_'
    ensures SplitFrom(w + rest, piece) == SplitFrom(rest, piece + w)
    ensures SeparatorsOf(w + rest) == SeparatorsOf(rest)
    decreases |w|
  {
    if |w| > 0 {
      var s := w + rest;
      assert s[0] == w[0] && s[0] != '-';
      if |w| >= 2 {
        assert s[1] == w[1];
      } else if |s| >= 2 {
        assert s[1] == rest[0];
      }
      assert !(|s| >= 2 && s[0] == '_' && s[1] == '_');
      assert s[1..] == w[1..] + rest;
      assert piece + [w[0]] + w[1..] == piece + w;
      NoDoubleUnderscoreTail(w);
      assert |w[1..]| > 0 ==> w[1..][|w[1..]| - 1] == w[|w| - 1];
      SplitWord(w[1..], rest, piece + [w[0]]);
    } else {
      assert w + rest == rest;
      assert piece + w == piece;
    }
  }

  lemma {:induction false} SplitOfJoinFrom(ws: seq<string>, seps: seq<string>, piece: string)
    requires |ws| == |seps| + 1
    requires forall i :: 0 <= i < |ws| ==> '-' !in ws[i] && NoDoubleUnderscore(ws[i])
    requires forall i :: 0 <= i < |seps| ==> Separator(seps[i])
    requires Leftmost(ws, seps)
    ensures SplitFrom(Join(ws, seps), piece) == [piece + ws[0]] + ws[1..]
    ensures SeparatorsOf(Join(ws, seps)) == seps
    decreases |seps|
  {
    if |seps| == 0 {
      SplitWord(ws[0], "", piece);
      assert ws[0] + "" == ws[0];
      assert ws[1..] == [];
    } else {
      var rest := Join(ws[1..], seps[1..]);
      var t := seps[0] + rest;
      assert Join(ws, seps) == ws[0] + t;
      assert seps[0] == "__" ==> !EndsInUnderscore(ws[0]);
      SplitWord(ws[0], t, piece);
      if seps[0] == "__" {
        assert t[2..] == rest;
      } else {
        assert t[1..] == rest;
      }
      assert SplitFrom(t, piece + ws[0]) == [piece + ws[0]] + SplitFrom(rest, "");
      assert SeparatorsOf(t) == [seps[0]] + SeparatorsOf(rest);
      assert Leftmost(ws[1..], seps[1..]) by {
        forall i | 0 <= i < |seps[1..]| && seps[1..][i] == "__" ensures !EndsInUnderscore(ws[1..][i]) {
          assert seps[1..][i] == seps[i + 1] && ws[1..][i] == ws[i + 1];
        }
      }
      SplitOfJoinFrom(ws[1..], seps[1..], "");
      assert "" + ws[1] == ws[1];
      assert [ws[1]] + ws[2..] == ws[1..];
      assert [seps[0]] + seps[1..] == seps;
    }
  }

  /**
   * The converse: any pieces free of '-' and "__", joined by separators so
   * that every cut is leftmost, split back into exactly those pieces and
   * separators. With SplitKeepsText this pins the split down on every input.
   */
  lemma SplitOfJoin(ws: seq<string>, seps: seq<string>)
    requires |ws| == |seps| + 1
    requires forall i :: 0 <= i < |ws| ==> '-' !in ws[i] && NoDoubleUnderscore(ws[i])
    requires forall i :: 0 <= i < |seps| ==> Separator(seps[i])
    requires Leftmost(ws, seps)
    ensures SplitFrom(Join(ws, seps), "") == ws
    ensures SeparatorsOf(Join(ws, seps)) == seps
  {
    SplitOfJoinFrom(ws, seps, "");
    assert "" + ws[0] == ws[0];
    assert [ws[0]] + ws[1..] == ws;
  }

  /**
   * A title and a file name may hold single '_' characters: with no '-' and
   * no "__" in them, a stub "dd-title-file" decodes to exactly that title
   * and file name under an empty hierarchy.
   */
  lemma DecodeUnderscoreNames(pt: string, title: string, file: string, text: string)
    requires |pt| == 2 && AllDigits(pt)
    requires title != "" && '-' !in title && NoDoubleUnderscore(title)
    requires file != "" && '-' !in file && NoDoubleUnderscore(file)
    ensures var r := Decode(pt + "-" + title + "-" + file, text);
      r.Success? && r.value.menuTitle == title && r.value.fileName == file && r.value.hierarchy == []
  {
    var stub := pt + "-" + title + "-" + file;
    var ws, seps := [title, file], ["-"];
    assert Join(ws, seps) == title + "-" + (file + "");
    assert stub[..2] == pt;
    assert stub[3..] == Join(ws, seps);
    assert Leftmost(ws, seps);
    SplitOfJoin(ws, seps);
    assert NonEmpty(ws) == ws by {
      NonEmptyAppend([title], [file]);
    }
  }

  /**
   * Decoding a generated name (without ".txt") recovers priority, hierarchy
   * and menu title, the exact full name, and the file name with its type
   * marker ("Base" comes back as "Base.cs"); the type itself is not recovered.
   */
  lemma {:induction false} DecodeGeneratedName(t: TemplateData, text: string)
    requires Encodable(t)
    ensures var name := GeneratedFileName(t);
      Decode(name[..|name| - 4], text) == Success(TemplateData(
        name, t.priority, t.menuTitle, MarkedFileName(t.fileName, t.scriptType),
        t.hierarchy, text, Csharp))
  {
    var name := GeneratedFileName(t);
    var pt := PriorityText(t.priority);
    var marked := MarkedFileName(t.fileName, t.scriptType);
    var stub := name[..|name| - 4];
    GeneratedStubParts(t);
    assert stub[..2] == pt;
    GeneratedPieces(t);
    var raw := t.hierarchy + [t.menuTitle, marked];
    TwoDigitPriority(pt);
    assert stub + ".txt" == name;
    var r := Decode(stub, text);
    assert r.Success?;
    var d := r.value;
    assert d.hierarchy + [d.menuTitle, d.fileName] == raw;
    assert d.hierarchy == t.hierarchy && d.menuTitle == t.menuTitle && d.fileName == marked by {
      assert |d.hierarchy| == |t.hierarchy|;
      assert d.hierarchy == raw[..|t.hierarchy|];
      assert raw[|t.hierarchy|] == d.menuTitle;
      assert raw[|t.hierarchy| + 1] == d.fileName;
    }
  }

  /**
   * Re-saving a decoded template under its original script type writes the
   * very same file: the marker is already in the decoded file name, so it is
   * not appended again.
   */
  lemma {:induction false} RegenerateSameName(t: TemplateData, text: string)
    requires Encodable(t)
    ensures var name := GeneratedFileName(t);
      var r := Decode(name[..|name| - 4], text);
      r.Success? && GeneratedFileName(r.value.(scriptType := t.scriptType)) == name
  {
    DecodeGeneratedName(t, text);
    var marked := MarkedFileName(t.fileName, t.scriptType);
    assert MarkedFileName(marked, t.scriptType) == marked;
  }

  /**
   * Because decoding forgets the script type, re-saving a decoded shader or
   * compute-shader template (whose name has no ".cs" in it) appends ".cs":
   * the file written is a different one.
   */
  lemma {:induction false} ReselectedTypeLost(t: TemplateData, text: string)
    requires Encodable(t) && t.scriptType != Csharp
    requires !Contains(MarkedFileName(t.fileName, t.scriptType), ".cs")
    ensures var name := GeneratedFileName(t);
      var r := Decode(name[..|name| - 4], text);
      r.Success? && GeneratedFileName(r.value) == name[..|name| - 4] + ".cs.txt"
  {
    var name := GeneratedFileName(t);
    var stub := name[..|name| - 4];
    var pt, prefix := PriorityText(t.priority), HierarchyPrefix(t.hierarchy);
    var marked := MarkedFileName(t.fileName, t.scriptType);
    DecodeGeneratedName(t, text);
    var d := Decode(stub, text).value;
    assert d.fileName == marked && d.scriptType == Csharp;
    assert MarkedFileName(marked, Csharp) == marked + ".cs";
    GeneratedFromParts(d, pt, prefix, marked + ".cs");
    GeneratedStubParts(t);
    MarkerInserted(pt, prefix, t.menuTitle, marked);
  }

  lemma MarkerInserted(pt: string, prefix: string, title: string, marked: string)
    ensures pt + "-" + prefix + title + "-" + (marked + ".cs") + ".txt"
      == pt + "-" + (prefix + (title + "-" + marked)) + ".cs.txt"
  {
  }

  /** Example: priority 5, one segment "Gameplay", title "Enemy", and a C# template called "Base". */
  lemma EnemyBaseExample(t: TemplateData)
    requires t == TemplateData("", 5, "Enemy", "Base", ["Gameplay"], "class #SCRIPTNAME# {}", Csharp)
    ensures GeneratedFileName(t) == "05-Gameplay__Enemy-Base.cs.txt"
  {
    BaseGetsCsMarker();
    FivePadded();
    GameplayPrefix();
    GeneratedFromParts(t, "05", "Gameplay__", "Base.cs");
    EnemyBaseSpelled(GeneratedFileName(t));
  }

  lemma EnemyBaseSpelled(name: string)
    requires name == "05" + "-" + "Gameplay__" + "Enemy" + "-" + "Base.cs" + ".txt"
    ensures name == "05-Gameplay__Enemy-Base.cs.txt"
  {
  }

  lemma BaseGetsCsMarker()
    ensures MarkedFileName("Base", Csharp) == "Base.cs"
  {
    assert "Base"[1..] == "ase" && "ase"[1..] == "se";
    assert !Contains("se", ".cs");
    assert "ase"[..3][0] != ".cs"[0];
    assert !Contains("ase", ".cs");
    assert "Base"[..3][0] != ".cs"[0];
  }

  lemma GameplayPrefix()
    ensures HierarchyPrefix(["Gameplay"]) == "Gameplay__"
  {
    assert HierarchyPrefix([]) == "";
  }

  lemma FivePadded()
    ensures PriorityText(5) == "05"
  {
    assert DigitChar(5) == '5';
  }

  /** The marker test is a substring test: "Docs.csv" contains ".cs" and gets no marker. */
  lemma DocsKeepsName()
    ensures MarkedFileName("Docs.csv", Csharp) == "Docs.csv"
  {
    ContainsAtEnd("", ".cs");
    ContainsBeforeSuffix(".cs", "v", ".cs");
    assert ".cs" + "v" == ".csv";
    ContainsAfterPrefix("Docs", ".csv", ".cs");
    assert "Docs" + ".csv" == "Docs.csv";
  }

  lemma ZeroPadded()
    ensures PriorityText(0) == "00"
  {
    assert DigitChar(0) == '0';
  }

  lemma DocsSpelled(name: string)
    requires name == "00" + "-" + "" + "Data" + "-" + "Docs.csv" + ".txt"
    ensures name == "00-Data-Docs.csv.txt"
  {
  }

  /** The whole name of a C# template whose file name "Docs.csv" merely contains ".cs". */
  lemma SubstringMarker(t: TemplateData)
    requires t == TemplateData("", 0, "Data", "Docs.csv", [], "x", Csharp)
    ensures GeneratedFileName(t) == "00-Data-Docs.csv.txt"
  {
    DocsKeepsName();
    ZeroPadded();
    GeneratedFromParts(t, "00", "", "Docs.csv");
    DocsSpelled(GeneratedFileName(t));
  }
}

=== FILE: routines.dfy ===
/**
 * The resumable units of `EditorWindowBase`: the iterator bodies of
 * `DelayedCallCore`, `DelayedCallNextFrameCore` and `NotificationCore`,
 * written as explicit state machines. One `Advance` is one `MoveNext`.
 * Time is `EditorApplication.timeSinceStartup` on an abstract natural clock;
 * caller-supplied actions are opaque identifiers.
 */
module Routines {
  import opened Wrappers

  /** A caller-supplied `System.Action`. */
  type ActionId = nat

  /** What a caller registered. */
  datatype Request =
    | DelayedCall(action: ActionId, duration: int)
    | NextFrameCall(action: ActionId)
    | Notification(message: string, duration: int, onDone: Option<ActionId>)

  /**
   * Where an iterator stands: not yet started (its body has not run at all,
   * since C# iterators are lazy), suspended at its `yield return null` (with
   * the start time it read), or finished (`MoveNext` returns false from then on).
   */
  datatype Phase = NotStarted | Suspended(start: nat) | Finished

  datatype Routine = Routine(request: Request, phase: Phase)

  /** What an advance does outside the routine itself. */
  datatype Effect = Ran(action: ActionId) | Shown(message: string) | Hidden

  datatype Step = Step(routine: Routine, effects: seq<Effect>)

  /** A routine as registered: nothing of its body has run yet. */
  function Launch(req: Request): Routine {
    Routine(req, NotStarted)
  }

  /** The number of actions run among `effects`. */
  function Runs(effects: seq<Effect>): nat {
    if |effects| == 0 then 0 else (if effects[0].Ran? then 1 else 0) + Runs(effects[1..])
  }

  lemma {:induction false} RunsAppend(a: seq<Effect>, b: seq<Effect>)
    ensures Runs(a + b) == Runs(a) + Runs(b)
  {
    if |a| > 0 {
      assert (a + b)[1..] == a[1..] + b;
      RunsAppend(a[1..], b);
    } else {
      assert a + b == b;
    }
  }

  /** What a timed routine does once its wait is over. */
  function Completion(req: Request): (e: seq<Effect>)
    ensures Runs(e) <= 1
  {
    match req
    case DelayedCall(a, _) => [Ran(a)]
    case NextFrameCall(a) => [Ran(a)]
    case Notification(_, _, onDone) =>
      var tail := if onDone.Some? then [Ran(onDone.value)] else [];
      var e := [Hidden] + tail;
      assert e[1..] == tail;
      assert Runs(e) == Runs(tail);
      assert |tail| > 0 ==> tail[1..] == [];
      e
  }

  function Duration(req: Request): int {
    match req
    case DelayedCall(_, d) => d
    case NextFrameCall(_) => 0
    case Notification(_, d, _) => d
  }

  /**
   * The `while (now - start < duration) yield return null;` test of a timed
   * routine that read `start`: still waiting, or done with its completion.
   */
  function Wait(r: Routine, start: nat, now: nat): (s: Step)
    requires !r.request.NextFrameCall?
    ensures s.routine.request == r.request
  {
    if now - start < Duration(r.request) then Step(r.(phase := Suspended(start)), [])
    else Step(r.(phase := Finished), Completion(r.request))
  }

  /**
   * One `MoveNext` at time `now`. A delayed call or notification reads its
   * start time on its first advance (a notification also shows its message
   * then), and completes on the first advance whose elapsed time reaches its
   * duration. A next-frame call yields once and runs on its second advance.
   * A finished routine does nothing.
   */
  function Advance(r: Routine, now: nat): (s: Step)
    ensures s.routine.request == r.request
    ensures r.phase.Finished? ==> s == Step(r, [])
    ensures Runs(s.effects) <= 1
    ensures !s.routine.phase.Finished? ==> Runs(s.effects) == 0 && !r.phase.Finished?
  {
    match r.phase
    case Finished => Step(r, [])
    case NotStarted =>
      (match r.request
       case NextFrameCall(_) => Step(r.(phase := Suspended(now)), [])
       case DelayedCall(_, _) => Wait(r, now, now)
       case Notification(m, _, _) =>
         var s := Wait(r, now, now);
         RunsAppend([Shown(m)], s.effects);
         Step(s.routine, [Shown(m)] + s.effects))
    case Suspended(start) =>
      if r.request.NextFrameCall? then Step(r.(phase := Finished), Completion(r.request))
      else Wait(r, start, now)
  }

  /** The effects of advancing `r` once at each of `times`, in order. */
  function Trace(r: Routine, times: seq<nat>): (tr: seq<seq<Effect>>)
    ensures |tr| == |times|
    decreases |times|
  {
    if |times| == 0 then []
    else
      var s := Advance(r, times[0]);
      [s.effects] + Trace(s.routine, times[1..])
  }

  /** Advance `k` is the first whose elapsed time since `start` reaches `duration`. */
  predicate FirstDue(times: seq<nat>, start: nat, duration: int, k: nat)
    requires k < |times|
  {
    times[k] - start >= duration && forall j :: 0 <= j < k ==> times[j] - start < duration
  }

  /** A finished routine stays silent for ever. */
  lemma {:induction false} FinishedTrace(r: Routine, times: seq<nat>)
    requires r.phase.Finished?
    ensures forall k :: 0 <= k < |times| ==> Trace(r, times)[k] == []
    decreases |times|
  {
    if |times| > 0 {
      FinishedTrace(r, times[1..]);
    }
  }

  /** A suspended timed routine completes exactly at the first advance that is due, and is silent otherwise. */
  lemma {:induction false} SuspendedTrace(r: Routine, start: nat, times: seq<nat>)
    requires !r.request.NextFrameCall? && r.phase == Suspended(start)
    ensures forall k :: 0 <= k < |times| ==>
      Trace(r, times)[k] == if FirstDue(times, start, Duration(r.request), k) then Completion(r.request) else []
    decreases |times|
  {
    if |times| > 0 {
      var d := Duration(r.request);
      var s := Advance(r, times[0]);
      var tr := Trace(r, times);
      assert tr[1..] == Trace(s.routine, times[1..]);
      if times[0] - start < d {
        SuspendedTrace(s.routine, start, times[1..]);
        forall k | 1 <= k < |times|
          ensures FirstDue(times, start, d, k) == FirstDue(times[1..], start, d, k - 1)
        {
          if FirstDue(times[1..], start, d, k - 1) {
            forall j | 0 <= j < k ensures times[j] - start < d {
              if j > 0 {
                assert times[j] == times[1..][j - 1];
              }
            }
          }
          if FirstDue(times, start, d, k) {
            forall j | 0 <= j < k - 1 ensures times[1..][j] - start < d {
              assert times[1..][j] == times[j + 1];
            }
          }
        }
      } else {
        FinishedTrace(s.routine, times[1..]);
        assert FirstDue(times, start, d, 0);
        forall k | 1 <= k < |times| ensures !FirstDue(times, start, d, k) {
          assert times[0] - start >= d;
        }
      }
    }
  }

  /**
   * `DelayedCallCore`: the action runs exactly once, at the first advance
   * where the time elapsed since the first advance reaches the duration.
   */
  lemma {:induction false} DelayedCallTrace(a: ActionId, duration: int, times: seq<nat>)
    ensures forall k :: 0 <= k < |times| ==>
      Trace(Launch(DelayedCall(a, duration)), times)[k]
        == if FirstDue(times, times[0], duration, k) then [Ran(a)] else []
  {
    if |times| > 0 {
      var r := Launch(DelayedCall(a, duration));
      var s := Advance(r, times[0]);
      var tr := Trace(r, times);
      assert tr[1..] == Trace(s.routine, times[1..]);
      if 0 < duration {
        assert s.routine.phase == Suspended(times[0]);
        SuspendedTrace(s.routine, times[0], times[1..]);
        forall k | 1 <= k < |times|
          ensures FirstDue(times, times[0], duration, k) == FirstDue(times[1..], times[0], duration, k - 1)
        {
          if FirstDue(times[1..], times[0], duration, k - 1) {
            forall j | 0 <= j < k ensures times[j] - times[0] < duration {
              if j > 0 {
                assert times[j] == times[1..][j - 1];
              }
            }
          }
          if FirstDue(times, times[0], duration, k) {
            forall j | 0 <= j < k - 1 ensures times[1..][j] - times[0] < duration {
              assert times[1..][j] == times[j + 1];
            }
          }
        }
      } else {
        FinishedTrace(s.routine, times[1..]);
        forall k | 1 <= k < |times| ensures !FirstDue(times, times[0], duration, k) {
          assert times[0] - times[0] >= duration;
        }
      }
    }
  }

  /** With a duration of zero or less, a delayed call runs during its very first advance. */
  lemma ImmediateDelayedCall(a: ActionId, duration: int, now: nat)
    requires duration <= 0
    ensures Advance(Launch(DelayedCall(a, duration)), now) == Step(Routine(DelayedCall(a, duration), Finished), [Ran(a)])
  {
  }

  /** `DelayedCallNextFrameCore`: silent on the first advance, runs on the second, silent after. */
  lemma {:induction false} NextFrameTrace(a: ActionId, times: seq<nat>)
    ensures forall k :: 0 <= k < |times| ==>
      Trace(Launch(NextFrameCall(a)), times)[k] == if k == 1 then [Ran(a)] else []
  {
    if |times| > 0 {
      var r := Launch(NextFrameCall(a));
      var s := Advance(r, times[0]);
      assert Trace(r, times)[1..] == Trace(s.routine, times[1..]);
      if |times| > 1 {
        var rest := times[1..];
        var s2 := Advance(s.routine, rest[0]);
        assert s2 == Step(Routine(NextFrameCall(a), Finished), [Ran(a)]);
        assert Trace(s.routine, rest)[1..] == Trace(s2.routine, rest[1..]);
        FinishedTrace(s2.routine, rest[1..]);
      }
    }
  }

  /**
   * `NotificationCore`: the message is shown on the first advance; at the
   * first advance whose elapsed time reaches the duration it is hidden and
   * only then the optional action runs; nothing else happens.
   */
  lemma {:induction false} NotificationTrace(m: string, duration: int, onDone: Option<ActionId>, times: seq<nat>)
    ensures forall k :: 0 <= k < |times| ==>
      Trace(Launch(Notification(m, duration, onDone)), times)[k]
        == (if k == 0 then [Shown(m)] else [])
           + (if FirstDue(times, times[0], duration, k)
              then [Hidden] + (if onDone.Some? then [Ran(onDone.value)] else [])
              else [])
  {
    if |times| > 0 {
      var req := Notification(m, duration, onDone);
      var r := Launch(req);
      var s := Advance(r, times[0]);
      var tr := Trace(r, times);
      assert tr[1..] == Trace(s.routine, times[1..]);
      if 0 < duration {
        assert s.routine.phase == Suspended(times[0]);
        assert tr[0] == [Shown(m)];
        SuspendedTrace(s.routine, times[0], times[1..]);
        forall k | 1 <= k < |times|
          ensures FirstDue(times, times[0], duration, k) == FirstDue(times[1..], times[0], duration, k - 1)
        {
          if FirstDue(times[1..], times[0], duration, k - 1) {
            forall j | 0 <= j < k ensures times[j] - times[0] < duration {
              if j > 0 {
                assert times[j] == times[1..][j - 1];
              }
            }
          }
          if FirstDue(times, times[0], duration, k) {
            forall j | 0 <= j < k - 1 ensures times[1..][j] - times[0] < duration {
              assert times[1..][j] == times[j + 1];
            }
          }
        }
      } else {
        FinishedTrace(s.routine, times[1..]);
        assert tr[0] == [Shown(m)] + Completion(req);
        forall k | 1 <= k < |times| ensures !FirstDue(times, times[0], duration, k) {
          assert times[0] - times[0] >= duration;
        }
      }
    }
  }

  /** The number of actions run over a whole trace. */
  function TotalRuns(tr: seq<seq<Effect>>): nat {
    if |tr| == 0 then 0 else Runs(tr[0]) + TotalRuns(tr[1..])
  }

  /**
   * No action runs twice: however often a routine is advanced, it runs at
   * most one action, and a finished one runs none.
   */
  lemma {:induction false} AtMostOnce(r: Routine, times: seq<nat>)
    ensures TotalRuns(Trace(r, times)) <= if r.phase.Finished? then 0 else 1
    decreases |times|
  {
    if |times| > 0 {
      var s := Advance(r, times[0]);
      var tr := Trace(r, times);
      assert tr[1..] == Trace(s.routine, times[1..]);
      AtMostOnce(s.routine, times[1..]);
    }
  }
}

=== FILE: template.dfy ===
/**
 * The template record (`TemplateData`) and the pure logic that surrounds it
 * in `ScriptTemplateEditor`: the script-type suffix table, validation with
 * its priority clamp, and the asset-kind test that seeds a record from a
 * selected asset.
 */
module Templates {
  import opened Wrappers
  import opened Text

  /** `SCRIPT_TYPE`: the kind of asset a template creates. */
  datatype ScriptType = Csharp | Shader | ComputeShader

  /**
   * One script template. `priority` orders the Create menu (ascending),
   * `hierarchy` is the sub-menu path, `fileName` the default asset name.
   */
  datatype TemplateData = TemplateData(
    fullName: string,
    priority: int,
    menuTitle: string,
    fileName: string,
    hierarchy: seq<string>,
    text: string,
    scriptType: ScriptType)

  /** The field initialisers of `TemplateData` (what `new TemplateData()` holds). */
  const Blank: TemplateData := TemplateData("", 81, "", "", [], "", Csharp)

  /**
   * `TypeToString`: the logical extension that marks the kind of asset in a
   * template file name. The table is injective, so the marker identifies the type.
   */
  function TypeToString(ty: ScriptType): (suffix: string)
    ensures suffix == ".cs" <==> ty == Csharp
    ensures suffix == ".shader" <==> ty == Shader
    ensures suffix == ".compute" <==> ty == ComputeShader
  {
    match ty
    case Csharp => ".cs"
    case Shader => ".shader"
    case ComputeShader => ".compute"
  }

  /** No suffix is empty, and none contains a separator of the file-name scheme. */
  lemma SuffixShape(ty: ScriptType)
    ensures |TypeToString(ty)| >= 3 && TypeToString(ty)[0] == '.'
    ensures forall i :: 0 <= i < |TypeToString(ty)| ==>
      TypeToString(ty)[i] != '-' && TypeToString(ty)[i] != '_' && TypeToString(ty)[i] != '\n'
  {
  }

  /** The three messages `HasError` can show, in the order it shows them. */
  datatype Problem = MissingMenuTitle | MissingFileName | MissingText

  /** What `HasError` leaves behind: the problems it reported and the (clamped) record. */
  datatype Validation = Validation(problems: seq<Problem>, record: TemplateData) {
    predicate HasError() {
      |problems| > 0
    }
  }

  /**
   * `HasError`: clamp the priority to be non-negative, then report each empty
   * field of menu title, file name and text. Strings are never null in the
   * model, so "null or empty" is "empty".
   */
  function HasError(t: TemplateData): (v: Validation)
    ensures v.HasError() <==> t.menuTitle == "" || t.fileName == "" || t.text == ""
    ensures MissingMenuTitle in v.problems <==> t.menuTitle == ""
    ensures MissingFileName in v.problems <==> t.fileName == ""
    ensures MissingText in v.problems <==> t.text == ""
    ensures |v.problems| <= 3
    ensures v.record.priority >= 0
    ensures t.priority >= 0 ==> v.record == t
    ensures t.priority < 0 ==> v.record == t.(priority := 0)
  {
    var clamped := t.(priority := if t.priority < 0 then 0 else t.priority);
    var problems :=
      (if t.menuTitle == "" then [MissingMenuTitle] else [])
      + (if t.fileName == "" then [MissingFileName] else [])
      + (if t.text == "" then [MissingText] else []);
    Validation(problems, clamped)
  }

  /** Clamping is idempotent: validating a validated record changes nothing further. */
  lemma {:induction false} HasErrorIdempotent(t: TemplateData)
    ensures HasError(HasError(t).record) == HasError(t)
  {
  }

  /**
   * The object selected in the project view, as far as `CheckFileType` can
   * tell: one of the three recognised asset classes, or anything else
   * (including no selection at all).
   */
  datatype SelectedObject = MonoScriptAsset | ShaderAsset | ComputeShaderAsset | OtherObject

  /** The asset class that corresponds to each script type. */
  function AssetOf(ty: ScriptType): SelectedObject {
    match ty
    case Csharp => MonoScriptAsset
    case Shader => ShaderAsset
    case ComputeShader => ComputeShaderAsset
  }

  /** The answer of `CheckFileType` together with the final value of its `ref` parameter. */
  datatype TypeCheck = TypeCheck(recognised: bool, scriptType: ScriptType)

  /**
   * `CheckFileType(selectionFile, ref type)`: true for the three recognised
   * asset classes, with `type` set to the matching script type; false for
   * anything else, leaving `type` as it was.
   */
  function CheckFileType(obj: SelectedObject, current: ScriptType): (r: TypeCheck)
    ensures r.recognised <==> obj != OtherObject
    ensures r.recognised ==> AssetOf(r.scriptType) == obj
    ensures !r.recognised ==> r.scriptType == current
  {
    match obj
    case MonoScriptAsset => TypeCheck(true, Csharp)
    case ShaderAsset => TypeCheck(true, Shader)
    case ComputeShaderAsset => TypeCheck(true, ComputeShader)
    case OtherObject => TypeCheck(false, current)
  }

  /** Every script type is recognised from its own asset class, whatever `type` held before. */
  lemma CheckFileTypeOfAsset(ty: ScriptType, current: ScriptType)
    ensures CheckFileType(AssetOf(ty), current) == TypeCheck(true, ty)
  {
  }

  /**
   * "Assets/AddToTemplate": when the selection is recognised, a fresh record
   * holding the asset's text and its script type (`new TemplateData(text, type)`);
   * otherwise nothing. The text read from disk is a parameter.
   */
  function ImportAsset(obj: SelectedObject, assetText: string): (r: Option<TemplateData>)
    ensures r.Some? <==> obj != OtherObject
    ensures r.Some? ==> r.value.text == assetText && AssetOf(r.value.scriptType) == obj
    ensures r.Some? ==> r.value.menuTitle == "" && r.value.fileName == "" && r.value.hierarchy == []
    ensures r.Some? ==> r.value == Blank.(text := assetText, scriptType := r.value.scriptType)
  {
    var check := CheckFileType(obj, Csharp);
    if check.recognised then Some(Blank.(text := assetText, scriptType := check.scriptType)) else None
  }

  /** An imported record cannot be generated until a menu title and a file name are typed in. */
  lemma ImportedNeedsNames(obj: SelectedObject, assetText: string)
    requires obj != OtherObject
    ensures var v := HasError(ImportAsset(obj, assetText).value);
      v.HasError() && MissingMenuTitle in v.problems && MissingFileName in v.problems
      && (MissingText in v.problems <==> assetText == "")
  {
  }
}

=== FILE: text.dfy ===
/**
 * String helpers the template editor relies on from .NET: decimal digits,
 * the ordinal substring test of `string.Contains`, and the "drop null or
 * empty strings" filter used both by `StringSplitOptions.RemoveEmptyEntries`
 * and by the hierarchy clean-up before a template is generated.
 */
module Text {

  predicate IsDigit(c: char) {
    '0' <= c <= '9'
  }

  predicate AllDigits(s: string) {
    forall i :: 0 <= i < |s| ==> IsDigit(s[i])
  }

  function DigitChar(d: nat): (c: char)
    requires d < 10
    ensures IsDigit(c)
  {
    ('0' as int + d) as char
  }

  function DigitValue(c: char): (d: nat)
    requires IsDigit(c)
    ensures d < 10
  {
    c as int - '0' as int
  }

  lemma DigitValueOfChar(d: nat)
    requires d < 10
    ensures DigitValue(DigitChar(d)) == d
  {
  }

  lemma DigitCharOfValue(c: char)
    requires IsDigit(c)
    ensures DigitChar(DigitValue(c)) == c
  {
  }

  /** Shortest decimal rendering of a natural number (`int.ToString()` for n >= 0). */
  function Decimal(n: nat): (s: string)
    ensures 1 <= |s|
    ensures AllDigits(s)
    ensures n < 10 <==> |s| == 1
    ensures n < 100 <==> |s| <= 2
    ensures n > 0 ==> s[0] != '0'
  {
    if n < 10 then [DigitChar(n)] else Decimal(n / 10) + [DigitChar(n % 10)]
  }

  /** The value of a string of ASCII decimal digits (`int.Parse` on such a string). */
  function ParseDecimal(s: string): nat
    requires AllDigits(s)
  {
    if |s| == 0 then 0 else ParseDecimal(s[..|s| - 1]) * 10 + DigitValue(s[|s| - 1])
  }

  /** Parsing undoes rendering. */
  lemma {:induction false} ParseDecimalOfDecimal(n: nat)
    ensures ParseDecimal(Decimal(n)) == n
  {
    var s := Decimal(n);
    if n < 10 {
      DigitValueOfChar(n);
    } else {
      ParseDecimalOfDecimal(n / 10);
      assert s[..|s| - 1] == Decimal(n / 10);
      DigitValueOfChar(n % 10);
    }
  }

  /** Ordinal substring test, as `string.Contains(string)`: does `needle` occur in `hay`? */
  predicate Contains(hay: string, needle: string)
    decreases |hay|
  {
    if |needle| > |hay| then false
    else if hay[..|needle|] == needle then true
    else Contains(hay[1..], needle)
  }

  /** `needle` occurs in `hay` starting at index `i`. */
  predicate OccursAt(hay: string, needle: string, i: int) {
    0 <= i && i + |needle| <= |hay| && hay[i..i + |needle|] == needle
  }

  /** The recursive test agrees with the positional definition of an occurrence. */
  lemma {:induction false} ContainsOccurs(hay: string, needle: string)
    ensures Contains(hay, needle) <==> exists i :: OccursAt(hay, needle, i)
    decreases |hay|
  {
    if |needle| > |hay| {
      assert forall i :: !OccursAt(hay, needle, i);
    } else if hay[..|needle|] == needle {
      assert OccursAt(hay, needle, 0);
    } else {
      ContainsOccurs(hay[1..], needle);
      if Contains(hay[1..], needle) {
        var i :| OccursAt(hay[1..], needle, i);
        assert hay[1..][i..i + |needle|] == hay[i + 1..i + 1 + |needle|];
        assert OccursAt(hay, needle, i + 1);
      } else {
        forall i | OccursAt(hay, needle, i) ensures false {
          assert i != 0;
          assert hay[1..][i - 1..i - 1 + |needle|] == hay[i..i + |needle|];
          assert OccursAt(hay[1..], needle, i - 1);
        }
      }
    }
  }

  /** A string occurs at its own end. */
  lemma {:induction false} ContainsAtEnd(prefix: string, needle: string)
    ensures Contains(prefix + needle, needle)
  {
    if |prefix| > 0 {
      var hay := prefix + needle;
      if hay[..|needle|] != needle {
        assert hay[1..] == prefix[1..] + needle;
        ContainsAtEnd(prefix[1..], needle);
      }
    } else {
      assert (prefix + needle)[..|needle|] == needle;
    }
  }

  /** An occurrence survives putting text in front of the string. */
  lemma {:induction false} ContainsAfterPrefix(prefix: string, hay: string, needle: string)
    requires Contains(hay, needle)
    ensures Contains(prefix + hay, needle)
  {
    if |prefix| > 0 {
      var whole := prefix + hay;
      if whole[..|needle|] != needle {
        assert whole[1..] == prefix[1..] + hay;
        ContainsAfterPrefix(prefix[1..], hay, needle);
      }
    } else {
      assert prefix + hay == hay;
    }
  }

  /** An occurrence survives putting text after the string. */
  lemma {:induction false} ContainsBeforeSuffix(hay: string, suffix: string, needle: string)
    requires Contains(hay, needle)
    ensures Contains(hay + suffix, needle)
  {
    var whole := hay + suffix;
    if hay[..|needle|] == needle {
      assert whole[..|needle|] == hay[..|needle|];
    } else {
      assert whole[1..] == hay[1..] + suffix;
      ContainsBeforeSuffix(hay[1..], suffix, needle);
    }
  }

  /**
   * The strings of `xs` that are not empty, in their original order: the
   * `Where(s => !String.IsNullOrEmpty(s))` filter and the effect of
   * `StringSplitOptions.RemoveEmptyEntries`.
   */
  function NonEmpty(xs: seq<string>): (r: seq<string>)
    ensures |r| <= |xs|
    ensures forall i :: 0 <= i < |r| ==> r[i] != ""
    ensures multiset(r) == multiset(xs)["" := 0]
    ensures (forall i :: 0 <= i < |xs| ==> xs[i] != "") ==> r == xs
  {
    if |xs| == 0 then []
    else
      assert xs == [xs[0]] + xs[1..];
      if xs[0] == "" then NonEmpty(xs[1..]) else [xs[0]] + NonEmpty(xs[1..])
  }

  /** Every string the filter keeps comes from the input. */
  lemma NonEmptyMember(xs: seq<string>, i: nat)
    requires i < |NonEmpty(xs)|
    ensures NonEmpty(xs)[i] in xs
  {
    var x := NonEmpty(xs)[i];
    assert x in multiset(NonEmpty(xs));
    assert x != "";
    assert multiset(xs)[x] > 0;
  }

  /** Filtering keeps order: the result is a concatenation-respecting map over the input. */
  lemma {:induction false} NonEmptyAppend(xs: seq<string>, ys: seq<string>)
    ensures NonEmpty(xs + ys) == NonEmpty(xs) + NonEmpty(ys)
  {
    if |xs| > 0 {
      assert (xs + ys)[1..] == xs[1..] + ys;
      NonEmptyAppend(xs[1..], ys);
    } else {
      assert xs + ys == ys;
    }
  }
}

=== FILE: windowbase.dfy ===
/**
 * `EditorWindowBase`: the static list of resumable routines, advanced once
 * per editor update over a snapshot taken at the start of the update, and
 * the window lifecycle that subscribes the update and discards the list.
 *
 * What an action does when it runs is outside the model except for the
 * routines it registers, given as the parameter `spawn`.
 */
module WindowBase {
  import opened Wrappers
  import opened Routines

  /**
   * The static field `_iEnumerator` (`None` once it has been set to null)
   * and whether `OnUpdate` is subscribed to `EditorApplication.update`.
   */
  datatype Scheduler = Scheduler(subscribed: bool, routines: Option<seq<Routine>>)

  /** The static initialiser: an empty list, nothing subscribed. */
  const Loaded: Scheduler := Scheduler(false, Some([]))

  /** The exception a call on the null list throws. */
  datatype Fault = NullReference

  /** The state after a call, what it did, and the exception it ended with, if any. */
  datatype Outcome = Outcome(state: Scheduler, effects: seq<Effect>, fault: Option<Fault>)

  // ---------------------------------------------------------------------------
  // One update
  // ---------------------------------------------------------------------------

  datatype Advanced = Advanced(routines: seq<Routine>, effects: seq<Effect>)

  /** The effect lists of `xss`, one after another. */
  function Concat(xss: seq<seq<Effect>>): seq<Effect> {
    if |xss| == 0 then [] else xss[0] + Concat(xss[1..])
  }

  /** What each routine of `snapshot`, advanced on its own at `now`, does, in list order. */
  function EachEffects(snapshot: seq<Routine>, now: nat): (es: seq<seq<Effect>>)
    ensures |es| == |snapshot|
  {
    seq(|snapshot|, i requires 0 <= i < |snapshot| => Advance(snapshot[i], now).effects)
  }

  /**
   * `foreach (var item in snapshot) item.MoveNext();`: every routine of the
   * snapshot is advanced exactly once, in place, and the update does what
   * the routines do, one after another in list order.
   */
  function AdvanceAll(snapshot: seq<Routine>, now: nat): (r: Advanced)
    ensures |r.routines| == |snapshot|
    ensures forall i :: 0 <= i < |snapshot| ==> r.routines[i] == Advance(snapshot[i], now).routine
    ensures r.effects == Concat(EachEffects(snapshot, now))
    ensures Runs(r.effects) <= |snapshot|
  {
    if |snapshot| == 0 then Advanced([], [])
    else
      var s := Advance(snapshot[0], now);
      var rest := AdvanceAll(snapshot[1..], now);
      RunsAppend(s.effects, rest.effects);
      assert EachEffects(snapshot, now)[1..] == EachEffects(snapshot[1..], now);
      Advanced([s.routine] + rest.routines, s.effects + rest.effects)
  }

  /** The snapshot is walked in list order: the effects of a list are those of its front, then its back. */
  lemma {:induction false} AdvanceAllInOrder(front: seq<Routine>, back: seq<Routine>, now: nat)
    ensures AdvanceAll(front + back, now).effects
      == AdvanceAll(front, now).effects + AdvanceAll(back, now).effects
  {
    if |front| > 0 {
      var whole := front + back;
      assert whole[0] == front[0];
      assert whole[1..] == front[1..] + back;
      AdvanceAllInOrder(front[1..], back, now);
      var e := Advance(front[0], now).effects;
      assert AdvanceAll(whole, now).effects == e + AdvanceAll(front[1..] + back, now).effects;
      assert AdvanceAll(front, now).effects == e + AdvanceAll(front[1..], now).effects;
    } else {
      assert front + back == back;
    }
  }

  /** The requests registered by the actions among `effects`, in the order the actions ran. */
  function Spawned(effects: seq<Effect>, spawn: ActionId -> seq<Request>): seq<Request> {
    if |effects| == 0 then []
    else (if effects[0].Ran? then spawn(effects[0].action) else []) + Spawned(effects[1..], spawn)
  }

  function LaunchAll(reqs: seq<Request>): (rs: seq<Routine>)
    ensures |rs| == |reqs|
    ensures forall i :: 0 <= i < |reqs| ==> rs[i] == Launch(reqs[i])
  {
    if |reqs| == 0 then [] else [Launch(reqs[0])] + LaunchAll(reqs[1..])
  }

  /**
   * `OnUpdate` on a live list: every routine present at the start is
   * advanced exactly once, in place; routines registered while the update
   * runs are appended behind them and not advanced before the next update.
   */
  function Tick(routines: seq<Routine>, now: nat, spawn: ActionId -> seq<Request>): (r: Advanced)
    ensures |r.routines| >= |routines|
    ensures forall i :: 0 <= i < |routines| ==> r.routines[i] == Advance(routines[i], now).routine
    ensures forall j :: |routines| <= j < |r.routines| ==> r.routines[j].phase.NotStarted?
    ensures r.routines[|routines|..] == LaunchAll(Spawned(r.effects, spawn))
    ensures r.effects == Concat(EachEffects(routines, now))
  {
    var adv := AdvanceAll(routines, now);
    var added := LaunchAll(Spawned(adv.effects, spawn));
    assert (adv.routines + added)[|routines|..] == added;
    Advanced(adv.routines + added, adv.effects)
  }

  /**
   * Every routine an action registers during one update is appended, not
   * started, in the order the actions ran, and the next update gives it its
   * first advance.
   */
  lemma RegisteredAdvancedNext(routines: seq<Routine>, now: nat, later: nat, spawn: ActionId -> seq<Request>)
    ensures var t := Tick(routines, now, spawn);
      var reqs := Spawned(t.effects, spawn);
      |t.routines| == |routines| + |reqs|
      && forall j :: 0 <= j < |reqs| ==>
        && t.routines[|routines| + j] == Launch(reqs[j])
        && Tick(t.routines, later, spawn).routines[|routines| + j] == Advance(Launch(reqs[j]), later).routine
  {
    var t := Tick(routines, now, spawn);
    var reqs := Spawned(t.effects, spawn);
    assert t.routines == t.routines[..|routines|] + t.routines[|routines|..];
    forall j | 0 <= j < |reqs| ensures t.routines[|routines| + j] == Launch(reqs[j]) {
      assert t.routines[|routines|..][j] == t.routines[|routines| + j];
    }
  }

  /**
   * One firing of `EditorApplication.update`: nothing when `OnUpdate` is not
   * subscribed; a null-reference exception when the list is null;
   * otherwise a tick.
   */
  function EditorUpdate(s: Scheduler, now: nat, spawn: ActionId -> seq<Request>): (r: Outcome)
    ensures !s.subscribed ==> r == Outcome(s, [], None)
    ensures s.subscribed && s.routines.None? ==> r == Outcome(s, [], Some(NullReference))
    ensures r.fault.None? ==> r.state.subscribed == s.subscribed && r.state.routines.Some? == s.routines.Some?
    ensures s.subscribed && s.routines.Some? ==>
      var t := Tick(s.routines.value, now, spawn);
      r == Outcome(Scheduler(true, Some(t.routines)), t.effects, None)
  {
    if !s.subscribed then Outcome(s, [], None)
    else if s.routines.None? then Outcome(s, [], Some(NullReference))
    else
      var t := Tick(s.routines.value, now, spawn);
      Outcome(Scheduler(true, Some(t.routines)), t.effects, None)
  }

  /** `ShowNotification`, `DelayedCall`, `DelayedCallNextFrame`: append a fresh routine to the list. */
  function Register(s: Scheduler, req: Request): (r: Outcome)
    ensures r.effects == []
    ensures r.fault.None? <==> s.routines.Some?
    ensures r.fault.None? ==> r.state == s.(routines := Some(s.routines.value + [Launch(req)]))
    ensures r.fault.Some? ==> r.state == s
  {
    match s.routines
    case None => Outcome(s, [], Some(NullReference))
    case Some(rs) => Outcome(s.(routines := Some(rs + [Launch(req)])), [], None)
  }

  // ---------------------------------------------------------------------------
  // Lifecycle
  // ---------------------------------------------------------------------------

  /**
   * `OnDisable`: unsubscribe, clear the list and set it to null. Pending
   * routines are dropped without running. `Clear` on a list that is already
   * null throws, after the unsubscription.
   */
  function OnDisable(s: Scheduler): (r: Outcome)
    ensures r.state == Scheduler(false, None) && r.effects == []
    ensures r.fault.Some? <==> s.routines.None?
  {
    Outcome(Scheduler(false, None), [], if s.routines.None? then Some(NullReference) else None)
  }

  /** `OnEnable` as written: subscribe `OnUpdate`; the static list is left as it is, even when null. */
  function OnEnableAsWritten(s: Scheduler): (r: Scheduler)
    ensures r.subscribed && r.routines == s.routines
  {
    s.(subscribed := true)
  }

  /** `OnEnable` with the list re-created when a previous `OnDisable` nulled it. */
  function OnEnable(s: Scheduler): (r: Scheduler)
    ensures r.subscribed && r.routines.Some?
    ensures s.routines.Some? ==> r.routines == s.routines
  {
    Scheduler(true, if s.routines.None? then Some([]) else s.routines)
  }

  /** A subscribed update always finds a list. */
  predicate Consistent(s: Scheduler) {
    s.subscribed ==> s.routines.Some?
  }

  /**
   * With the corrected `OnEnable`, every lifecycle step and every update
   * keeps the scheduler consistent, and a consistent scheduler never faults
   * on an update.
   */
  lemma ConsistentPreserved(s: Scheduler, now: nat, spawn: ActionId -> seq<Request>, req: Request)
    requires Consistent(s)
    ensures Consistent(Loaded)
    ensures Consistent(OnEnable(s))
    ensures Consistent(OnDisable(s).state)
    ensures EditorUpdate(s, now, spawn).fault.None? && Consistent(EditorUpdate(s, now, spawn).state)
    ensures Consistent(Register(s, req).state)
  {
  }

  /**
   * Closing the window and opening it again without a script reload, as
   * written: the list stays null, so every update, every registration and
   * the next `OnDisable` throw.
   */
  lemma ReopenAsWrittenFaults(s: Scheduler, now: nat, spawn: ActionId -> seq<Request>, req: Request)
    ensures var reopened := OnEnableAsWritten(OnDisable(s).state);
      && !Consistent(reopened)
      && EditorUpdate(reopened, now, spawn).fault == Some(NullReference)
      && Register(reopened, req).fault == Some(NullReference)
      && OnDisable(reopened).fault == Some(NullReference)
  {
  }

  /**
   * With the corrected `OnEnable`, a reopened window starts from an empty
   * list: updates run without fault and without effects, and registering
   * works again.
   */
  lemma ReopenWorks(s: Scheduler, now: nat, spawn: ActionId -> seq<Request>, req: Request)
    ensures var reopened := OnEnable(OnDisable(s).state);
      && reopened == Scheduler(true, Some([]))
      && EditorUpdate(reopened, now, spawn) == Outcome(reopened, [], None)
      && Register(reopened, req) == Outcome(Scheduler(true, Some([Launch(req)])), [], None)
  {
    assert [] + [Launch(req)] == [Launch(req)];
  }

  /**
   * Routines pending at `OnDisable` never run: no update reaches them while
   * disabled, and enabling again does not bring them back.
   */
  lemma DisableDiscardsPending(s: Scheduler, now: nat, spawn: ActionId -> seq<Request>)
    ensures var d := OnDisable(s).state;
      && EditorUpdate(d, now, spawn) == Outcome(d, [], None)
      && OnEnable(d).routines == Some([])
  {
  }

  /**
   * A routine registered during an update (by an action that ran in it) is
   * first advanced by the next update: here, a next-frame call registered by
   * a delayed call's action runs exactly two updates after the delayed call.
   */
  lemma {:induction false} SpawnedWaitsForNextTick(
    a: ActionId, b: ActionId, t0: nat, t1: nat, t2: nat, spawn: ActionId -> seq<Request>)
    requires spawn(a) == [NextFrameCall(b)] && spawn(b) == []
    ensures var s0 := Scheduler(true, Some([Launch(DelayedCall(a, 0))]));
      var u0 := EditorUpdate(s0, t0, spawn);
      var u1 := EditorUpdate(u0.state, t1, spawn);
      var u2 := EditorUpdate(u1.state, t2, spawn);
      u0.effects == [Ran(a)] && u1.effects == [] && u2.effects == [Ran(b)]
  {
    var r0 := Launch(DelayedCall(a, 0));
    var fin := Routine(DelayedCall(a, 0), Finished);
    var n := Launch(NextFrameCall(b));
    assert AdvanceAll([r0], t0) == Advanced([fin], [Ran(a)]);
    assert Spawned([Ran(a)], spawn) == [NextFrameCall(b)];
    assert LaunchAll([NextFrameCall(b)]) == [n];
    assert [fin] + [n] == [fin, n];
    var n1 := Routine(NextFrameCall(b), Suspended(t1));
    assert [fin, n][1..] == [n];
    assert AdvanceAll([n], t1) == Advanced([n1], []);
    assert AdvanceAll([fin, n], t1) == Advanced([fin, n1], []);
    assert Spawned([], spawn) == [];
    assert [fin, n1] + LaunchAll([]) == [fin, n1];
    var n2 := Routine(NextFrameCall(b), Finished);
    assert [fin, n1][1..] == [n1];
    assert AdvanceAll([n1], t2) == Advanced([n2], [Ran(b)]);
    assert AdvanceAll([fin, n1], t2) == Advanced([fin, n2], [Ran(b)]);
  }
}

=== FILE: wrappers.dfy ===
/** Failure-compatible result types shared by the rest of the model. */
module Wrappers {

  /** A value that may be absent (a C# null reference or an optional argument). */
  datatype Option<+T> = None | Some(value: T)

  /** The outcome of an operation that can throw: its value, or the exception it raises. */
  datatype Result<+R, +E> = Success(value: R) | Failure(error: E)
}
